=== FILE: README.md ===
# Survey management front end: a Dafny model

This project models the decision logic inside the React pages of a survey
management application. Administrators and staff build surveys, students answer
them, and administrators export per-question reports. The pages keep their state in
immutable records and replace it with spread-and-replace updates. Here each handler
becomes a pure Dafny function from the old state (and the backend's reply) to
the new one.

Modules, one per source file, plus two shared ones:

- `Common`: optional values, the JavaScript values kept in answer maps and their
  truthiness, ASCII lower-casing, `String.prototype.includes`, the
  `Math.round` percentage, and order-preserving `Array.prototype.filter`.
- `SurveyCreate`: the question-builder draft list, the option editor and the
  save handler (`src/pages/SurveyCreate.jsx`).
- `App`: the `ProtectedRoute` guard and the route table (`src/App.jsx`).
- `SurveyAnswer`: the answer map, the checkbox toggle, the required-answer gate,
  the submitted batch, the progress figure and the inputs each question type
  gets (`src/pages/SurveyAnswer.jsx`).
- `Reports`: the per-option counting and percentages of the report
  (`src/pages/Reports.jsx`).
- `Surveys`: the survey list's query restriction, search and status filter,
  status menu, delete and status change (`src/pages/Surveys.jsx`).
- `UserManagement`: the user list's filter, the edit payload, and the
  submit, edit, delete and reset handlers (`src/pages/UserManagement.jsx`).
- `AvailableSurveys`: the student survey list, its filters, badge, button
  label and link, and its sign-in gate (`src/pages/AvailableSurveys.jsx`).
- `Sidebar`: the role the sidebar settles on, the menu per role, the active
  entry and the badge (`src/components/Layout/Sidebar.jsx`).
- `LandingPage`: the dashboard each role is sent to, and the login and
  sign-up handlers (`src/pages/LandingPage.jsx`).
- `StaffDashboard`: the statistics, recent-response cards and progress bars
  of the staff dashboard (`src/pages/dashboards/StaffDashboard.jsx`).
- `Navigation`: where the landing page's redirects and the sidebar's links
  actually lead once the route guard has looked at them.

The backend (the data service and its authentication) does not appear as
code. Each call becomes an input to the handler that issued it: success or
failure, the returned row, the error message, or the user's answer to a
confirmation dialog.

Where the code and the documented design differ, the model follows the code:

- Deleting a draft question does not renumber `order_index`. An add after a
  delete can therefore repeat a position (`SurveyCreate.DeleteThenAddCanRepeatPosition`).
- The saved status is exactly what the pressed button passes. There is no
  role-based override to a pending status.
- The guard compares one role string, not a set of roles.
- The authentication context publishes only `user` and `loading`. So `isAdmin`
  on the survey list is always undefined, and every user, administrators
  included, sees only their own surveys (`Surveys.ListAlwaysRestrictedToOwner`).
  `profile` on the answering page is undefined too, so every submitted answer
  row has a null `user_id` (`SurveyAnswer.SubmittedRowsHaveNoUser`). `session`
  on the available-surveys page is also undefined (see Findings).

## Model

| member | source | states |
|---|---|---|
| Common.StrOr | src/components/Layout/Sidebar.jsx:11 | `x \|\| fallback` for a string: the string when present and non-empty, the fallback otherwise |
| Common.Lower | src/pages/Surveys.jsx:103 | `toLowerCase` keeps the length and lower-cases each character in place |
| Common.Includes | src/pages/Surveys.jsx:103 | `includes` holds exactly when the needle occurs at some position of the haystack |
| Common.EmptyNeedleAlwaysIncluded | src/pages/Surveys.jsx:103-104 | every string includes the empty search term |
| Common.Filter | src/pages/Surveys.jsx:101-110 | `filter` keeps only elements satisfying the test, keeps every element that does, as an order-preserving subsequence, and is the identity when all pass |
| Common.FilterCounts | src/pages/Surveys.jsx:101-110 | `filter` keeps every copy of an element that passes and no copy of one that fails |
| Common.FilterAppend | src/pages/Surveys.jsx:101-110 | filtering a concatenation filters each part |
| Common.RoundPercent | src/pages/Reports.jsx:328 | `Math.round(part / whole * 100)` taken over the exact fraction: the whole number nearest to 100·part/whole, halves rounded up (the page rounds a double, see Left out) |
| Common.RoundPercentAtMost100 | src/pages/Reports.jsx:328 | a part no larger than the whole rounds to at most 100 |
| Common.RoundPercentMonotone | src/pages/SurveyAnswer.jsx:98 | a larger share never rounds to a smaller percentage |
| SurveyCreate.TrimEmptyIffBlank | src/pages/SurveyCreate.jsx:45 | `trim()` yields the empty string exactly when every character is whitespace or a line terminator |
| SurveyCreate.AddQuestion | src/pages/SurveyCreate.jsx:44-53 | blank text leaves the builder unchanged; otherwise exactly one draft is appended, with `order_index` equal to the old length and the form's fields, earlier drafts untouched, and the form reset |
| SurveyCreate.UpdateQuestion | src/pages/SurveyCreate.jsx:55-61 | blank text is a no-op; otherwise only drafts with the edited id take the form's fields, every draft keeps its id and `order_index`, and the length is unchanged |
| SurveyCreate.DeleteQuestion | src/pages/SurveyCreate.jsx:63-65 | every copy of each draft with a different id and no draft with that id, in list order, not renumbered; an absent id changes nothing |
| SurveyCreate.EditQuestion | src/pages/SurveyCreate.jsx:67-77 | the draft goes into the form and into `editingQuestion`, the form opens, and the list is unchanged |
| SurveyCreate.ResetQuestionForm | src/pages/SurveyCreate.jsx:79-89 | the form returns to its defaults, nothing is being edited, and the list is unchanged |
| SurveyCreate.MoveQuestion | src/pages/SurveyCreate.jsx:102-110 | an out-of-range target changes nothing; otherwise exactly positions `i` and `i+d` are exchanged, the length is kept, and every `order_index` equals its position |
| SurveyCreate.MovePreservesDrafts | src/pages/SurveyCreate.jsx:102-108 | a move keeps the multiset of drafts |
| SurveyCreate.MoveUpThenDownRestores | src/pages/SurveyCreate.jsx:102-110 | moving `i` up and then `i-1` down restores the original drafts in the original order, densely numbered |
| SurveyCreate.MoveUpThenDownIsIdentity | src/pages/SurveyCreate.jsx:102-110 | on a densely numbered list that round trip is the identity |
| SurveyCreate.DeleteThenAddCanRepeatPosition | src/pages/SurveyCreate.jsx:49 | deleting the first of two drafts and adding one gives two drafts with `order_index` 1 |
| SurveyCreate.AddThenDeleteRestores | src/pages/SurveyCreate.jsx:44-65 | adding a draft under an id no draft has and then deleting that id gives the original list back |
| SurveyCreate.AddOption | src/pages/SurveyCreate.jsx:91 | exactly one empty option is appended and nothing else in the form changes |
| SurveyCreate.ParseType | src/pages/SurveyCreate.jsx:301 | `questionTypes.find(t => t.value === question_type)` finds a type only for the string that type is stored as |
| SurveyCreate.ParseTypeInvertsTypeName | src/pages/SurveyCreate.jsx:7-14 | every stored type string is found back as its type, and a string is found exactly when some type is stored as it |
| SurveyCreate.NeedsOptions | src/pages/SurveyCreate.jsx:161 | true exactly for the types stored as 'multiple_choice', 'checkbox' and 'dropdown' |
| SurveyCreate.OptionEditor | src/pages/SurveyCreate.jsx:390-418 | shown exactly when the chosen type needs options; one row per option with its text; each remove button enabled exactly when more than two options remain |
| SurveyCreate.RemoveEnabledIffEffective | src/pages/SurveyCreate.jsx:402-406 | a row's remove button is enabled exactly when `removeOption` on that row would change the form |
| SurveyCreate.UpdateOption | src/pages/SurveyCreate.jsx:92-95 | only slot `i` changes, to the new value |
| SurveyCreate.RemoveOption | src/pages/SurveyCreate.jsx:96-100 | with two or fewer options nothing changes; otherwise exactly slot `i` is dropped, so at least two options remain |
| SurveyCreate.OptionCountNeverBelowTwo | src/pages/SurveyCreate.jsx:91-100 | no sequence of add and remove clicks takes a form with two options below two |
| SurveyCreate.QuestionRows | src/pages/SurveyCreate.jsx:137-145 | one row per draft, in order, with the new survey's id, the draft's fields and its `order_index` |
| SurveyCreate.SaveSurvey | src/pages/SurveyCreate.jsx:113-159 | no title or no drafts: no insert at all; otherwise the survey row carries exactly the passed status; question rows are written only after the survey insert succeeds; the page navigates only when both inserts succeed |
| SurveyCreate.DraftAndPublishDifferOnlyInStatus | src/pages/SurveyCreate.jsx:113-186 | the Save as Draft and Publish buttons write the same question rows and navigate alike; their survey rows differ only in status, 'draft' against 'active' |
| App.ProtectedRoute | src/App.jsx:19-30 | loading: the placeholder; no user: to `/landing`; a required role different from the user's: to `/dashboard`; otherwise the page, and the page exactly in that case |
| App.LoadingShowsPlaceholder | src/App.jsx:22 | while loading every guarded path shows the placeholder, whoever the user is |
| App.RouteFor | src/App.jsx:34-143 | `/landing` and `/logout` are public; `/` and every path that is neither one of the fourteen route paths nor an answer path redirect to `/landing`; an answer path selects the answer page for its id |
| App.Visit | src/App.jsx:34-143 | a redirect route navigates to its target, a public route shows its page, a guarded route shows its page exactly when the guard renders its children |
| App.RequiredRole | src/App.jsx:42-139 | the five admin paths require 'admin', the two role dashboards 'staff' and 'student', and the other guarded paths (answer path included) only a user |
| App.UnmatchedPathsGoToLanding | src/App.jsx:141-142 | `/` (line 35), every path that is none of the fourteen route paths and not an answer path, and any guarded path without a user lead to `/landing` |
| App.RedirectsResolveInOneHop | src/App.jsx:24-49 | the guard's redirect targets need no role, so a second visit always shows a page |
| SurveyAnswer.SetAnswer | src/pages/SurveyAnswer.jsx:50-52 | only that question's entry changes, to the new value |
| SurveyAnswer.SetAnswerAnswersQuestion | src/pages/SurveyAnswer.jsx:50-99 | a truthy answer clears that question's required check and leaves every other question's as it was; the keys stay question ids, and progress does not drop and stays at most 100 |
| SurveyAnswer.ToggleCheckbox | src/pages/SurveyAnswer.jsx:54-60 | a selected option is removed (every occurrence) and the other selections kept in order with their multiplicities; an unselected one is appended; other questions are untouched |
| SurveyAnswer.ToggleTwiceRestoresMembership | src/pages/SurveyAnswer.jsx:54-60 | toggling the same option twice restores every option's membership |
| SurveyAnswer.StoredOrNull | src/pages/SurveyAnswer.jsx:78 | the stored answer when it is truthy, `null` otherwise |
| SurveyAnswer.ProfileUserId | src/pages/SurveyAnswer.jsx:77 | the profile's id when present and non-empty, `null` otherwise |
| SurveyAnswer.AnswerRows | src/pages/SurveyAnswer.jsx:74-79 | exactly one row per question, in question order, with the survey id, the question id and the stored answer or `null` |
| SurveyAnswer.HandleSubmit | src/pages/SurveyAnswer.jsx:62-92 | no survey: nothing; rejected before any insert exactly when some required question's answer is missing or falsy; otherwise the batch is submitted and the page moves on exactly when the insert succeeds |
| SurveyAnswer.EmptySelectionCountsAsAnswered | src/pages/SurveyAnswer.jsx:66 | an empty checkbox array passes the required check, because arrays are truthy |
| SurveyAnswer.SubmittedRowsHaveNoUser | src/context/AuthProvider.jsx:36-39 | with the context the application provides, every submitted row has a null `user_id` |
| SurveyAnswer.GetProgress | src/pages/SurveyAnswer.jsx:94-99 | 0 without a survey; the rounded share of answer keys over questions; for a survey without questions NaN with no answers and Infinity with some |
| SurveyAnswer.ProgressWithinBounds | src/pages/SurveyAnswer.jsx:94-99 | when the answer keys are question ids, progress is a finite number in 0..100 |
| SurveyAnswer.StarCount | src/pages/SurveyAnswer.jsx:153 | `max_rating || 5` stars: five for a missing or zero setting, the setting when positive, and `None` (the array constructor throws) exactly when it is negative |
| SurveyAnswer.Perform | src/pages/SurveyAnswer.jsx:150-212 | an interaction writes only its own question's key, and an interaction with an input that is not rendered changes nothing |
| SurveyAnswer.DropdownNeverAnswered | src/pages/SurveyAnswer.jsx:151-212 | with the inputs as rendered, no sequence of interactions stores an answer for a dropdown question |
| SurveyAnswer.RequiredDropdownBlocksSubmit | src/pages/SurveyAnswer.jsx:62-70 | so a survey with a required dropdown question is always rejected at submit |
| SurveyAnswer.EveryRequiredQuestionAnswerable | src/pages/SurveyAnswer.jsx:151-212 | with dropdown rendered as a single choice, some sequence of interactions answers every question and the submit goes through |
| SurveyAnswer.OptionInputsMatchOptionEditor | src/pages/SurveyAnswer.jsx:151-212 | every builder type is one this page names; with dropdown rendered, the types with option inputs are exactly those whose builder form has the option editor; as written, dropdown alone gets no input |
| Reports.BumpAllAddsOccurrences | src/pages/Reports.jsx:320 | counting an array adds to each key its number of occurrences in the array |
| Reports.ResponseCounts | src/pages/Reports.jsx:316-324 | the counting loop adds to every key exactly the reference tally: arrays add 1 per element, truthy scalars add 1 to themselves, missing or falsy answers add nothing |
| Reports.CountAnswerAdds | src/pages/Reports.jsx:318-323 | visiting one response adds that response's contribution to every key |
| Reports.Percent | src/pages/Reports.jsx:328 | 0 with no responses, otherwise the count's share of the responses rounded to a whole percent |
| Reports.QuestionResultFor | src/pages/Reports.jsx:315-332 | the question's text and one entry per option, in option order, with the option's text and its rounded share; no options give an empty list |
| Reports.BuildReport | src/pages/Reports.jsx:298-350 | one result per question, in order; the question and response counts; completion 100 with at least one response and 0 without |
| Reports.GetSurveyReportData | src/pages/Reports.jsx:273-355 | `null` as soon as one of the three fetches fails, the aggregated report otherwise |
| Reports.TallyAtMostResponses | src/pages/Reports.jsx:318-324 | when no response repeats an option id, its count is at most the number of responses |
| Reports.PercentsAtMost100 | src/pages/Reports.jsx:318-328 | under that condition every percentage lies in 0..100 |
| Reports.ThreeToOneSplit | src/pages/Reports.jsx:315-331 | three answers A and one answer B give 75% and 25% |
| Reports.NoResponsesGiveZero | src/pages/Reports.jsx:328 | with no responses every option shows 0% |
| Surveys.ListQuery | src/pages/Surveys.jsx:17-51 | no query without a user; restricted to the user's own surveys unless `isAdmin` |
| Surveys.ListAlwaysRestrictedToOwner | src/pages/Surveys.jsx:8-40 | since the context has no `isAdmin`, every signed-in user's query is restricted to their own surveys |
| Surveys.FilteredSurveys | src/pages/Surveys.jsx:101-110 | every copy of each survey matching both the case-insensitive search on title or description and the status filter ('all' or equal), no other survey, in list order |
| Surveys.UntitledSurveyNeverMatches | src/pages/Surveys.jsx:102-104 | a survey with neither title nor description never matches, even the empty search |
| Surveys.EmptySearchMatchesTitled | src/pages/Surveys.jsx:102-104 | any survey with a title matches the empty search |
| Surveys.CampusExample | src/pages/Surveys.jsx:101-110 | "campus" finds "Campus Facilities Feedback" and not "CS101 Evaluation" |
| Surveys.StatusMenu | src/pages/Surveys.jsx:196-212 | Publish (draft to active) only for drafts, Close (active to closed) only for active surveys, Delete always |
| Surveys.MenuOnlyMovesForward | src/pages/Surveys.jsx:196-212 | through the menu a status only moves forward, and a closed or unknown status never changes |
| Surveys.HandleDelete | src/pages/Surveys.jsx:54-68 | a delete call for that id is sent exactly when the user confirms; cancelled or failed: the list is unchanged; otherwise the surveys with that id leave, every other survey keeps all its copies in order, and the menu closes |
| Surveys.DeleteUnknownIdKeepsList | src/pages/Surveys.jsx:64 | deleting an id no survey has keeps the list; a confirmed, successful delete only closes the menu |
| Surveys.DeleteIsIdempotent | src/pages/Surveys.jsx:64 | deleting the same survey again changes nothing more |
| Surveys.HandleStatusChange | src/pages/Surveys.jsx:71-85 | on success only the surveys with that id change, and only their status; on failure nothing changes |
| Surveys.StatusChangeKeepsIds | src/pages/Surveys.jsx:78-80 | a status change keeps the list's ids in order |
| UserManagement.FilteredUsers | src/pages/UserManagement.jsx:167-173 | every copy of each user whose name or e-mail contains the term (ignoring case) and whose role matches the filter ('all' or equal), no other user, in list order |
| UserManagement.InitialFiltersShowEveryone | src/pages/UserManagement.jsx:167-173 | the initial filters (empty search, 'all') show every user |
| UserManagement.FilteringTwiceIsFilteringOnce | src/pages/UserManagement.jsx:167-173 | the filter is idempotent |
| UserManagement.DepartmentOrNull | src/pages/UserManagement.jsx:71 | an empty department becomes `null`, any other is kept |
| UserManagement.BuildUpdates | src/pages/UserManagement.jsx:67-75 | the update carries the form's fields, `null` for an empty department, and the password exactly when one was typed |
| UserManagement.Merge | src/pages/UserManagement.jsx:84 | the updated fields win, the id stays, and an absent password keeps the row's |
| UserManagement.InsertPayload | src/pages/UserManagement.jsx:89-98 | a new user carries the typed password, even an empty one, and otherwise exactly the fields of an update |
| UserManagement.ResetForm | src/pages/UserManagement.jsx:146-156 | role 'student', active, empty strings, nothing being edited, and the list untouched |
| UserManagement.HandleSubmit | src/pages/UserManagement.jsx:60-114 | failure: nothing changes; an edit merges the updates into the rows with the edited id only; an insert appends the returned row; success closes the modal and resets the form |
| UserManagement.HandleEdit | src/pages/UserManagement.jsx:116-127 | the form takes the user's fields with an empty password and an empty department for a missing one, and the modal opens |
| UserManagement.EditUntouchedKeepsRow | src/pages/UserManagement.jsx:60-127 | opening a user and saving the unchanged form gives the same row back, unless its department was the empty string |
| UserManagement.InsertAppendsAtEnd | src/pages/UserManagement.jsx:104 | a successful insert keeps every row and puts the returned one last |
| UserManagement.HandleDelete | src/pages/UserManagement.jsx:129-143 | a delete call for that id is sent exactly when the user confirms; cancelled or failed: the list is unchanged; otherwise the rows with that id go and every other row keeps all its copies, in order |
| UserManagement.DeleteUnknownIdIsNoOp | src/pages/UserManagement.jsx:140 | deleting an id nobody has changes nothing |
| UserManagement.DeleteIsIdempotent | src/pages/UserManagement.jsx:140 | deleting the same id twice equals deleting it once |
| AvailableSurveys.FieldSearch | src/pages/AvailableSurveys.jsx:54 | a null field throws; a present one matches exactly when the lower-cased term occurs in it lower-cased |
| AvailableSurveys.SearchOutcome | src/pages/AvailableSurveys.jsx:53-56 | a null title always throws, a listing with all three fields never does, and a result is the case-insensitive match on the present fields |
| AvailableSurveys.FilteredListings | src/pages/AvailableSurveys.jsx:52-65 | no list (the render throws) exactly when the search reaches a null field of some listing; otherwise every copy of each listing matching the case-insensitive search on its present fields and the type filter, no other, in list order |
| AvailableSurveys.UrgentSurveys | src/pages/AvailableSurveys.jsx:67 | every copy of each urgent listing and no other listing, in list order |
| AvailableSurveys.EmptySearchMatchesTitled | src/pages/AvailableSurveys.jsx:53-56 | a listing with a title matches the empty search at the first test, whatever its other fields hold |
| AvailableSurveys.UntitledListingBreaksRender | src/pages/AvailableSurveys.jsx:52-54 | one listing without a title makes the filter throw, whatever the search and the filter type |
| AvailableSurveys.UrgentFilterIsUrgentSurveys | src/pages/AvailableSurveys.jsx:58-67 | when every listing has a title, the 'urgent' filter with an empty search shows exactly `urgentSurveys` |
| AvailableSurveys.InitialFiltersShowAll | src/pages/AvailableSurveys.jsx:52-65 | when every listing has a title, the initial filters show every listing |
| AvailableSurveys.UnknownFilterShowsNothing | src/pages/AvailableSurveys.jsx:58-62 | a filter type other than the four offered matches nothing, when the render does not throw |
| AvailableSurveys.StatusBadge | src/pages/AvailableSurveys.jsx:39-50 | a badge exactly for 'new', 'in_progress' and 'completed', each its own, and `null` otherwise |
| AvailableSurveys.ButtonLabel | src/pages/AvailableSurveys.jsx:187 | "Continue Survey" exactly when the status is 'in_progress', "Start Survey" otherwise |
| AvailableSurveys.ContinueIffInProgressBadge | src/pages/AvailableSurveys.jsx:43-44 | the button says continue exactly when the badge says In Progress |
| AvailableSurveys.AnswerLinkHitsCatchAll | src/pages/AvailableSurveys.jsx:182-188 | the button's link `/survey/<id>/answer` matches no route and falls to the redirect to `/landing` |
| AvailableSurveys.AnswerLink | src/App.jsx:74-81 | `/surveys/answer/<id>` selects the answer page for that id |
| AvailableSurveys.AnswerLinkReachesAnswerPage | src/App.jsx:74-81 | a signed-in user following that link sees the answer page for that survey |
| AvailableSurveys.ViewAsWritten | src/pages/AvailableSurveys.jsx:52-78 | the render fails exactly when some listing makes the filter throw; otherwise the prompt shows exactly when there is no session, and the list shown is the filtered one |
| AvailableSurveys.ListNeverShown | src/pages/AvailableSurveys.jsx:8-78 | with the context the application provides, the list is never shown: the page shows the prompt exactly when no listing makes the filter throw, and fails otherwise |
| AvailableSurveys.View | src/pages/AvailableSurveys.jsx:52-78 | gated on the signed-in user instead, with the filter still first: fails exactly when a listing makes the filter throw, otherwise the prompt exactly when nobody is signed in, else the filtered list |
| AvailableSurveys.GuardedPageShowsList | src/pages/AvailableSurveys.jsx:52-78 | behind the route guard that gate shows the list exactly when the filter does not throw, and the list is the filtered one |
| Sidebar.InitialRole | src/components/Layout/Sidebar.jsx:11 | the context profile's role when set, 'user' otherwise |
| Sidebar.StartsWithDefaultMenu | src/components/Layout/Sidebar.jsx:8-11 | with the context the application provides, the sidebar starts as 'user' with the default menu |
| Sidebar.RoleAfterFetch | src/components/Layout/Sidebar.jsx:17-37 | no current user: the role stays; a row: its role or 'user'; an error: 'user' |
| Sidebar.SettledRole | src/components/Layout/Sidebar.jsx:8-37 | the mount effect fetches exactly when the context has no profile and a user is signed in; without the fetch the initial role stays, with it the fetch's role over 'user' |
| Sidebar.SidebarSettlesOnRowRole | src/components/Layout/Sidebar.jsx:8-37 | with the application's context, a signed-in user's sidebar settles on the non-empty role of their row, and with nobody signed in it keeps the default menu |
| Sidebar.FallbackRoleGetsDefaultMenu | src/components/Layout/Sidebar.jsx:31-35 | a missing role or a failed fetch gives the default menu |
| Sidebar.MenuFor | src/components/Layout/Sidebar.jsx:69-75 | admin, staff and student get their lists, any other role the single `/dashboard` entry |
| Sidebar.EveryRoleHasDashboardFirst | src/components/Layout/Sidebar.jsx:42-67 | every role's menu is non-empty and starts with a Dashboard entry |
| Sidebar.ActiveEntries | src/components/Layout/Sidebar.jsx:77 | the highlighted entries are every copy of each entry whose path equals the current path, in menu order, and no other |
| Sidebar.AtMostOneActive | src/components/Layout/Sidebar.jsx:42-77 | each menu's paths are distinct, so at most one entry is highlighted |
| Sidebar.DistinctMenuHighlightsAtMostOne | src/components/Layout/Sidebar.jsx:77 | in a menu with distinct paths at most one entry is highlighted |
| Sidebar.SidebarHighlightsAtMostOne | src/components/Layout/Sidebar.jsx:42-128 | whatever the role and location, the sidebar highlights at most one entry |
| Sidebar.BadgeColor | src/components/Layout/Sidebar.jsx:111 | teal exactly for admin, blue exactly for staff, amber exactly for anything else |
| Sidebar.AmberBadgeIffNonPrivilegedMenu | src/components/Layout/Sidebar.jsx:69-111 | the badge is amber exactly when the role gets the student or the default menu |
| Sidebar.RoleCaption | src/components/Layout/Sidebar.jsx:115 | the role with its first character upper-cased and the rest unchanged |
| Sidebar.KnownRoleCaptions | src/components/Layout/Sidebar.jsx:115 | the captions are Admin, Staff, Student and User |
| Sidebar.Render | src/components/Layout/Sidebar.jsx:79 | nothing while authentication loads, otherwise the role's menu, badge colour and upper-cased badge caption |
| LandingPage.DashboardPath | src/pages/LandingPage.jsx:58-60 | admin to `/admin-dashboard`, staff to `/staff-dashboard`, every other role to `/student-dashboard` |
| LandingPage.AutoRedirect | src/pages/LandingPage.jsx:26-32 | a signed-in user is sent to the dashboard of their role, a null role to the student one |
| LandingPage.ErrorText | src/pages/LandingPage.jsx:62 | the error's message, or the fallback when it is empty |
| LandingPage.LoginRole | src/pages/LandingPage.jsx:57 | the row's role, or 'student' when missing or empty |
| LandingPage.HandleLogin | src/pages/LandingPage.jsx:35-66 | each failure shows its message or fallback and does not navigate, a missing or empty user id counting as missing; success navigates to the role's dashboard; `loading` ends false |
| LandingPage.LoginAndAutoRedirectAgree | src/pages/LandingPage.jsx:26-60 | for a non-empty user id, logging in and arriving signed in lead to the same dashboard for every role |
| LandingPage.EmptyIdFailsLikeMissingId | src/pages/LandingPage.jsx:47-48 | an empty user id fails login and sign-up exactly as a missing one does: 'Login failed' with no navigation, 'Signup failed' with no insert and no alert |
| LandingPage.HandleSignup | src/pages/LandingPage.jsx:69-108 | mismatched passwords: 'Passwords do not match' and no sign-up call; a failed sign-up or insert shows its message or 'Signup failed.', a missing or empty user id 'Signup failed'; success inserts the form's row, alerts, and swaps to the login form; failures keep the forms; `loading` ends false |
| LandingPage.SignupThenLoginReachesChosenDashboard | src/pages/LandingPage.jsx:48-101 | for a non-empty user id, when the login's role lookup reads back the row a successful sign-up inserted, the user lands on the dashboard of the role chosen in the form |
| StaffDashboard.PendingResponses | src/pages/dashboards/StaffDashboard.jsx:44 | every copy of each unreviewed response, no reviewed one, in list order |
| StaffDashboard.ShownDashboard | src/pages/dashboards/StaffDashboard.jsx:13-65 | the loading text exactly when the effect's condition keeps the fetch from running (it stays, as only the fetch clears `loading`); after a fetch, a failed render exactly when the derived state has a survey or a notification to list (the undefined `getStatusColor` and `getNotificationIcon` of lines 105 and 152), otherwise cards over the derived state, which then lists neither |
| StaffDashboard.GuardedDashboardFetches | src/pages/dashboards/StaffDashboard.jsx:13-65 | behind the staff guard a settled user is signed in; an empty id leaves the loading text for good; with an id, a throwing fetch shows the four cards at zero, a fetch returning a survey or a notification fails to render, and any cards that render show zero statistics |
| StaffDashboard.CompletionRate | src/pages/dashboards/StaffDashboard.jsx:45 | 0 with no surveys, otherwise responses against ten per survey, rounded to a whole percent |
| StaffDashboard.CompletionRateAtMost100 | src/pages/dashboards/StaffDashboard.jsx:45 | with at most ten responses per survey the rate is at most 100 |
| StaffDashboard.Card | src/pages/dashboards/StaffDashboard.jsx:48-53 | 'Untitled Survey', 'Anonymous' and 'Just now' stand in for a missing title, name or time |
| StaffDashboard.RecentCards | src/pages/dashboards/StaffDashboard.jsx:48 | the cards of the first three responses (fewer if there are fewer), in order |
| StaffDashboard.DeriveDashboard | src/pages/dashboards/StaffDashboard.jsx:19-63 | survey count from the fetch; responses only asked for with at least one survey; totals, pending count, rate and cards from them; a throw resets every statistic to 0 and every list to empty |
| StaffDashboard.PendingAtMostTotal | src/pages/dashboards/StaffDashboard.jsx:41-53 | pending reviews never exceed total responses, and there are at most three recent cards |
| StaffDashboard.NoSurveysNoResponses | src/pages/dashboards/StaffDashboard.jsx:26-46 | with no surveys every statistic is 0 |
| StaffDashboard.Target | src/pages/dashboards/StaffDashboard.jsx:112 | a missing or zero target counts as 1, so there is no division by zero |
| StaffDashboard.ProgressPercent | src/pages/dashboards/StaffDashboard.jsx:112 | the rounded, unclamped share of responses over the target |
| StaffDashboard.BarWidth | src/pages/dashboards/StaffDashboard.jsx:116 | the exact share clamped to 0..100, full exactly when the target is reached |
| StaffDashboard.OverTargetShowsFullBar | src/pages/dashboards/StaffDashboard.jsx:112-116 | past the target the printed percentage is 100 or more while the bar is full |
| Navigation.DashboardsAdmitTheirRole | src/pages/LandingPage.jsx:26-32 | for admin, staff and student, the dashboard the landing page picks shows for that role |
| Navigation.OtherRolesEndOnGenericDashboard | src/App.jsx:24-29 | a null or unknown role is sent to the student dashboard on arrival (and by a login whose session carries a non-empty id), bounced to `/dashboard`, and shown that |
| Navigation.UnroutedEntriesGoToLanding | src/components/Layout/Sidebar.jsx:48-64 | the Settings, Responses, Analytics and Notifications entries match no route and lead to `/landing` |
| Navigation.StaffCreateEntryBounces | src/components/Layout/Sidebar.jsx:54 | the staff menu's Create Survey entry is bounced to `/dashboard`, because the route asks for admin |
| Navigation.MenuEntriesReachPages | src/components/Layout/Sidebar.jsx:42-75 | for a user of that role, a menu entry shows a page exactly when it is neither unrouted nor the staff Create Survey entry |

## Left out

- The data service and its authentication (select, insert, update, delete,
  sign-in, sign-up) become inputs: success or failure, returned rows and error
  messages. `navigate`, `alert` and `window.confirm` become outcome fields or
  boolean inputs. The loading and submitting spinners are not modelled except
  where a handler's final `loading` value is stated.
- The authentication provider's session subscription, and the mount flags of
  the layout. Only the context's value `{user, loading}` is modelled.
- The PDF document and its styles, the undefined `getMockReportData` that the
  report page renders with, `avgTime` (a floating-point `toFixed`), and the fixed
  "analysis" text of the report.
- Dates, `toLocaleString` and `Date.now()`. The new draft's id is a parameter.
- The pages outside this core: the admin, student and generic dashboards,
  my-responses, logout, survey editing, AI analytics and the layout shell.
- `getDepartmentName`, `getRoleColor` and the survey list's `getStatusColor` are
  display lookups. StaffDashboard's `getStatusColor` and
  `getNotificationIcon` are referenced but never defined. What they would
  return is left out. That calling them throws is modelled:
  StaffDashboard.ShownDashboard gives `RenderFails` whenever a survey or a
  notification would be listed.
- The notifications list of the staff dashboard is kept as opaque ids.
- Common.Lower: upper case is folded for ASCII letters only. JavaScript folds
  all of Unicode.
- Reports.ResponseCounts: counts are keyed by the answer value. JavaScript
  converts object keys to strings, so the number 5 and the string "5" share a
  count there and not here.
- Reports.BuildReport: the completion rate is stated from `round(n / n * 100)`
  over the integers. Floating-point rounding is not modelled (it gives 100 for
  every n > 0 as well).
- Common.RoundPercent: rounds the exact fraction. The pages round the double
  `part / whole * 100`, which can land just below a half: 23/40 gives
  57.49999999999999, so 57 there and 58 here.
- Reports.Percent: uses Common.RoundPercent, so 23 of 40 responses show 57% in
  the page and 58% here.
- SurveyAnswer.GetProgress: uses Common.RoundPercent, so 23 answers out of 40
  questions show 57 in the page and 58 here.
- StaffDashboard.CompletionRate: uses Common.RoundPercent, so 23 responses over
  4 surveys show 57 in the page and 58 here.
- StaffDashboard.ProgressPercent: uses Common.RoundPercent, so 29 of a target of
  200 shows 14 in the page and 15 here.
- App.RouteFor: paths match exactly, case-sensitively and without a trailing
  slash. React Router matches case-insensitively and accepts a trailing slash,
  so `/Reports` and `/reports/` reach the Reports guard in the application but
  `/landing` here.
- Sidebar.RoleCaption: upper-cases ASCII letters only. JavaScript's
  `toUpperCase` covers Unicode and can lengthen the string ("ß" becomes "SS").
- StaffDashboard.BarWidth: the division and the clamp are exact real arithmetic,
  not IEEE doubles.
- SurveyCreate.UpdateQuestion requires a draft being edited. The page only
  shows the update button then; with none, the original would throw.
- SurveyCreate.MoveQuestion requires the moved index to be a rendered position.
  The original would move `undefined` into the list for other indexes.
- SurveyCreate.MoveQuestion: the original also writes `order_index` into the
  draft objects it shares with the previous state. The model is purely functional.
- SurveyCreate.UpdateOption requires a rendered option index.
- SurveyCreate.EditQuestion: a draft's options and settings are always present,
  so the `|| ['', '']` and default-settings fallbacks are not modelled.
- SurveyAnswer.ToggleCheckbox requires that a truthy stored value is an array.
  Only the checkbox inputs write those keys.
- SurveyAnswer.Perform: the rating input writes `i + 1` for the clicked star
  only. A negative `max_rating` makes `Array(n)` throw a RangeError, so the
  whole page fails to render. SurveyAnswer.StarCount gives `None` for it, but
  Perform then treats that one question as having no star input; it does not
  fail the page. `max_rating` is an integer here, so the RangeError of a
  fractional value and a non-numeric value are not modelled.
- AvailableSurveys.AnswerLink requires a non-empty survey id without `/`, as a
  route parameter is.
- UserManagement.HandleSubmit: `loading` is not part of the modelled state.
  The fetch of users and departments is left out with the rest of the I/O.
- Options come in two shapes that are kept separate. The builder's options
  are strings (src/pages/SurveyCreate.jsx:39, 91, 142). The answering page
  (src/pages/SurveyAnswer.jsx:165-188) and the report
  (src/pages/Reports.jsx:326-327) read `{id, option_text}` rows. The
  conversion between the two is not part of this model, so the answering
  lemmas take option rows as given.
- The sign-up role selector and its values are inputs. The form's field
  updates are left out (plain assignments).

## Findings

| source | as written | input that shows it | evidently intended | confidence | as-written member | corrected member |
|---|---|---|---|---|---|---|
| src/pages/SurveyAnswer.jsx:151-212 | the answering page renders inputs for rating, multiple choice, checkbox, short and long text only, while the builder offers 'dropdown' (src/pages/SurveyCreate.jsx:13) | a survey with one required dropdown question: no interaction stores an answer for it, so every submit is rejected | a dropdown question gets a single-choice input over its options | high (not executed) | SurveyAnswer.RequiredDropdownBlocksSubmit | SurveyAnswer.EveryRequiredQuestionAnswerable |
| src/pages/AvailableSurveys.jsx:183 | the button links to `/survey/<id>/answer` | any survey id, e.g. "42": `/survey/42/answer` matches no route and the catch-all sends the user to `/landing` | the link is the answer route `/surveys/answer/<id>` (src/App.jsx:75) | high (not executed) | AvailableSurveys.AnswerLinkHitsCatchAll | AvailableSurveys.AnswerLinkReachesAnswerPage |
| src/pages/AvailableSurveys.jsx:8 | the page reads `session` from the authentication context, which publishes only `user` and `loading` (src/context/AuthProvider.jsx:37), and shows the sign-in prompt whenever it is missing | a signed-in student opening `/available-surveys`: `session` is undefined and the prompt replaces the list | the list shows for a signed-in user | high (not executed) | AvailableSurveys.ListNeverShown | AvailableSurveys.GuardedPageShowsList |

=== FILE: app.dfy ===
/**
 * The application's route table and its `ProtectedRoute` guard.
 *
 * The guard is a pure decision over the authentication context
 * (`{user, loading}`) and the single role string a route asks for; the route
 * table maps a path to a redirect, a public page, or a guarded page.
 */
module App {
  import opened Common

  /** A row of the `users` table as the authentication context publishes it; `role` may be null. */
  datatype AuthUser = AuthUser(id: string, fullName: string, email: string, role: Option<string>)

  /** The value of the authentication context: exactly `{ user, loading }`. */
  datatype Auth = Auth(user: Option<AuthUser>, loading: bool)

  /** What `ProtectedRoute` renders. */
  datatype GuardView = LoadingPlaceholder | RedirectTo(path: string) | RenderChildren

  /**
   * `ProtectedRoute({children, role})`: the placeholder while loading, the
   * landing page without a user, the generic dashboard when a role is asked
   * for and the user's role differs, and the page otherwise.
   */
  function ProtectedRoute(auth: Auth, role: Option<string>): (v: GuardView)
    ensures auth.loading ==> v == LoadingPlaceholder
    ensures !auth.loading && auth.user.None? ==> v == RedirectTo("/landing")
    ensures !auth.loading && auth.user.Some? ==>
      (v == RedirectTo("/dashboard") <==> role.Some? && role.value != "" && auth.user.value.role != role)
    ensures v == RenderChildren <==>
      && !auth.loading && auth.user.Some?
      && (role.None? || role.value == "" || auth.user.value.role == role)
  {
    if auth.loading then LoadingPlaceholder
    else if auth.user.None? then RedirectTo("/landing")
    else if role.Some? && role.value != "" && auth.user.value.role != role then RedirectTo("/dashboard")
    else RenderChildren
  }

  /** The pages the routes mount. */
  datatype Page =
    | LandingPage | LogoutPage | DashboardPage | UserManagementPage | SurveysPage
    | SurveyCreatePage | SurveyAnswerPage(surveyId: string) | AvailableSurveysPage
    | MyResponsesPage | AIAnalyticsPage | ReportsPage
    | AdminDashboardPage | StaffDashboardPage | StudentDashboardPage

  /** One `<Route>` of `AppRoutes`. */
  datatype Route =
    | Redirect(to: string)
    | Public(page: Page)
    | Guarded(role: Option<string>, page: Page)

  const AnswerPrefix := "/surveys/answer/"

  /** The path `/surveys/answer/:surveyId` with a non-empty id segment. */
  predicate IsAnswerPath(path: string) {
    |path| > |AnswerPrefix| && path[..|AnswerPrefix|] == AnswerPrefix && '/' !in path[|AnswerPrefix|..]
  }

  /** The fourteen literal paths of the route table. */
  const RoutePaths: set<string> := {
    "/", "/landing", "/logout", "/dashboard", "/user-management", "/surveys", "/surveys/create",
    "/available-surveys", "/my-responses", "/ai-analytics", "/reports",
    "/admin-dashboard", "/staff-dashboard", "/student-dashboard"}

  /**
   * `AppRoutes`: the route a path selects. Only `/landing` and `/logout` are
   * public, every redirect goes to `/landing`, an answer path selects the
   * answer page for its id, and a path that is neither listed nor an answer
   * path falls to the catch-all.
   */
  function RouteFor(path: string): (r: Route)
    ensures r.Public? <==> path in {"/landing", "/logout"}
    ensures r.Redirect? ==> r.to == "/landing"
    ensures r.Redirect? <==> path == "/" || (path !in RoutePaths && !IsAnswerPath(path))
    ensures IsAnswerPath(path) ==> r == Guarded(None, SurveyAnswerPage(path[|AnswerPrefix|..]))
  {
    assert IsAnswerPath(path) ==> path[2] == path[..|AnswerPrefix|][2] == 'u' && |path| > 16;
    if path == "/" then Redirect("/landing")
    else if path == "/landing" then Public(LandingPage)
    else if path == "/logout" then Public(LogoutPage)
    else if path == "/dashboard" then Guarded(None, DashboardPage)
    else if path == "/user-management" then Guarded(Some("admin"), UserManagementPage)
    else if path == "/surveys" then Guarded(None, SurveysPage)
    else if path == "/surveys/create" then Guarded(Some("admin"), SurveyCreatePage)
    else if path == "/available-surveys" then Guarded(None, AvailableSurveysPage)
    else if path == "/my-responses" then Guarded(None, MyResponsesPage)
    else if path == "/ai-analytics" then Guarded(Some("admin"), AIAnalyticsPage)
    else if path == "/reports" then Guarded(Some("admin"), ReportsPage)
    else if path == "/admin-dashboard" then Guarded(Some("admin"), AdminDashboardPage)
    else if path == "/staff-dashboard" then Guarded(Some("staff"), StaffDashboardPage)
    else if path == "/student-dashboard" then Guarded(Some("student"), StudentDashboardPage)
    else if IsAnswerPath(path) then Guarded(None, SurveyAnswerPage(path[|AnswerPrefix|..]))
    else Redirect("/landing")
  }

  /** What visiting a path shows: a page, the loading placeholder, or a navigation elsewhere. */
  datatype Screen = Shows(page: Page) | ShowsLoading | NavigatesTo(path: string)

  /** Visiting `path` with the given authentication context. */
  function Visit(auth: Auth, path: string): (s: Screen)
    ensures RouteFor(path).Redirect? ==> s == NavigatesTo(RouteFor(path).to)
    ensures RouteFor(path).Public? ==> s == Shows(RouteFor(path).page)
    ensures RouteFor(path).Guarded? ==>
      (s == Shows(RouteFor(path).page) <==> ProtectedRoute(auth, RouteFor(path).role) == RenderChildren)
  {
    match RouteFor(path)
    case Redirect(to) => NavigatesTo(to)
    case Public(page) => Shows(page)
    case Guarded(role, page) =>
      match ProtectedRoute(auth, role)
      case LoadingPlaceholder => ShowsLoading
      case RedirectTo(to) => NavigatesTo(to)
      case RenderChildren => Shows(page)
  }

  /** The role a path's guard asks for; `None` for unguarded paths and for guards without a role. */
  function RequiredRole(path: string): (r: Option<string>)
    ensures path in {"/user-management", "/surveys/create", "/ai-analytics", "/reports", "/admin-dashboard"}
      ==> r == Some("admin") && RouteFor(path).Guarded?
    ensures path == "/staff-dashboard" ==> r == Some("staff") && RouteFor(path).Guarded?
    ensures path == "/student-dashboard" ==> r == Some("student") && RouteFor(path).Guarded?
    ensures path in {"/dashboard", "/surveys", "/available-surveys", "/my-responses"} || IsAnswerPath(path)
      ==> r == None && RouteFor(path).Guarded?
  {
    assert IsAnswerPath(path) ==> path[2] == path[..|AnswerPrefix|][2] == 'u';
    match RouteFor(path)
    case Guarded(role, _) => role
    case _ => None
  }

  /**
   * `/`, every path that is neither in the route table nor an answer path,
   * and every non-public path visited without a user lead to `/landing`.
   */
  lemma UnmatchedPathsGoToLanding(auth: Auth, path: string)
    requires !auth.loading
    requires || path == "/"
             || (path !in RoutePaths && !IsAnswerPath(path))
             || (auth.user.None? && path !in {"/landing", "/logout"})
    ensures Visit(auth, path) == NavigatesTo("/landing")
  {
  }

  /**
   * Every redirect lands on a page at once: `/landing` has no guard and
   * `/dashboard` asks for no role, so an authenticated user whose role does
   * not match reaches a page in a single hop.
   */
  lemma {:induction false} RedirectsResolveInOneHop(auth: Auth, path: string)
    requires !auth.loading
    requires Visit(auth, path).NavigatesTo?
    ensures Visit(auth, Visit(auth, path).path).Shows?
  {
  }

  /** A loading context shows the placeholder on every guarded path, whoever the user is. */
  lemma LoadingShowsPlaceholder(auth: Auth, path: string)
    requires auth.loading
    requires RouteFor(path).Guarded?
    ensures Visit(auth, path) == ShowsLoading
  {
  }
}

=== FILE: available_surveys.dfy ===
/**
 * The student's list of available surveys: its search and type filter, the
 * urgent subset, the status badge, the start/continue button and the link
 * that button follows, and the sign-in gate in front of the list.
 */
module AvailableSurveys {
  import opened Common
  import App

  /**
   * A survey row as this page reads it. `title`, `description` and
   * `department` may be null in the table; the search calls
   * `toLowerCase()` on them without a null check.
   */
  datatype Listing = Listing(
    id: string,
    title: Option<string>,
    description: Option<string>,
    department: Option<string>,
    status: string,
    isUrgent: bool)

  // ---------------------------------------------------------------------------
  // Filters
  // ---------------------------------------------------------------------------

  /** `field.toLowerCase().includes(term.toLowerCase())`: `None` when the field is null and the call throws. */
  function FieldSearch(field: Option<string>, term: string): (r: Option<bool>)
    ensures r.None? <==> field.None?
    ensures r.Some? ==> (r.value <==> exists i :: OccursAt(Lower(field.value), Lower(term), i))
  {
    if field.None? then None else Some(ContainsIgnoringCase(field.value, term))
  }

  /** The term occurs, ignoring case, in one of the listing's fields that are present. */
  predicate ListingSearchMatches(l: Listing, term: string) {
    || (l.title.Some? && ContainsIgnoringCase(l.title.value, term))
    || (l.description.Some? && ContainsIgnoringCase(l.description.value, term))
    || (l.department.Some? && ContainsIgnoringCase(l.department.value, term))
  }

  /** All three searched fields are present. */
  predicate Complete(l: Listing) {
    l.title.Some? && l.description.Some? && l.department.Some?
  }

  /**
   * `matchesSearch`, evaluated as the page does: the three tests joined by
   * `||` from left to right, so a null field throws (`None`) only when the
   * search reaches it.
   */
  function SearchOutcome(l: Listing, term: string): (r: Option<bool>)
    ensures l.title.None? ==> r.None?
    ensures Complete(l) ==> r.Some?
    ensures r.Some? ==> (r.value <==> ListingSearchMatches(l, term))
  {
    match FieldSearch(l.title, term)
    case None => None
    case Some(true) => Some(true)
    case Some(false) =>
      match FieldSearch(l.description, term)
      case None => None
      case Some(true) => Some(true)
      case Some(false) => FieldSearch(l.department, term)
  }

  /** The type part of `filteredSurveys`: 'all', 'urgent', or one of the statuses 'in_progress' and 'new'. */
  predicate TypeMatches(l: Listing, filterType: string) {
    || filterType == "all"
    || (filterType == "urgent" && l.isUrgent)
    || (filterType == "in_progress" && l.status == "in_progress")
    || (filterType == "new" && l.status == "new")
  }

  /** Evaluating the search on this listing throws. */
  predicate SearchThrows(l: Listing, term: string) {
    SearchOutcome(l, term).None?
  }

  /**
   * `filteredSurveys`: `None` when the search throws on some listing (the
   * render fails), otherwise the listings matching both the search and the
   * type filter, in list order, each kept as often as it occurs.
   */
  function FilteredListings(ls: seq<Listing>, term: string, filterType: string): (r: Option<seq<Listing>>)
    ensures r.None? <==> exists k :: 0 <= k < |ls| && SearchThrows(ls[k], term)
    ensures r.Some? ==> IsSubseq(r.value, ls)
    ensures r.Some? ==>
      forall k :: 0 <= k < |r.value| ==> ListingSearchMatches(r.value[k], term) && TypeMatches(r.value[k], filterType)
    ensures r.Some? ==>
      forall k :: 0 <= k < |ls| && ListingSearchMatches(ls[k], term) && TypeMatches(ls[k], filterType)
        ==> ls[k] in r.value
    ensures r.Some? ==>
      forall x :: x in ls ==>
        multiset(r.value)[x] == if ListingSearchMatches(x, term) && TypeMatches(x, filterType) then multiset(ls)[x] else 0
  {
    if exists k :: 0 <= k < |ls| && SearchThrows(ls[k], term) then None
    else
      var keep := (l: Listing) => ListingSearchMatches(l, term) && TypeMatches(l, filterType);
      FilterCounts(ls, keep);
      Some(Filter(ls, keep))
  }

  /** `urgentSurveys`: the urgent listings, in list order, each kept as often as it occurs. */
  function UrgentSurveys(ls: seq<Listing>): (r: seq<Listing>)
    ensures IsSubseq(r, ls)
    ensures forall k :: 0 <= k < |r| ==> r[k].isUrgent
    ensures forall k :: 0 <= k < |ls| && ls[k].isUrgent ==> ls[k] in r
    ensures forall x :: x in ls ==> multiset(r)[x] == if x.isUrgent then multiset(ls)[x] else 0
  {
    var keep := (l: Listing) => l.isUrgent;
    FilterCounts(ls, keep);
    Filter(ls, keep)
  }

  /** A listing with a title passes the empty search at its first test, whatever its other fields hold. */
  lemma EmptySearchMatchesTitled(l: Listing)
    requires l.title.Some?
    ensures SearchOutcome(l, "") == Some(true)
  {
    EmptyNeedleAlwaysIncluded(Lower(l.title.value));
  }

  /** A single listing without a title breaks the page's render, whatever the search and the filter. */
  lemma UntitledListingBreaksRender(ls: seq<Listing>, k: int, term: string, filterType: string)
    requires 0 <= k < |ls| && ls[k].title.None?
    ensures FilteredListings(ls, term, filterType).None?
  {
  }

  /** With an empty search, the 'urgent' filter shows exactly the urgent surveys, once every listing has a title. */
  lemma UrgentFilterIsUrgentSurveys(ls: seq<Listing>)
    requires forall k :: 0 <= k < |ls| ==> ls[k].title.Some?
    ensures FilteredListings(ls, "", "urgent") == Some(UrgentSurveys(ls))
  {
    forall k | 0 <= k < |ls| ensures SearchOutcome(ls[k], "") == Some(true) {
      EmptySearchMatchesTitled(ls[k]);
    }
    FilterSameOnAll(ls,
      (l: Listing) => ListingSearchMatches(l, "") && TypeMatches(l, "urgent"),
      (l: Listing) => l.isUrgent);
  }

  /** Filtering with two predicates that agree on every element gives the same list. */
  lemma {:induction false} FilterSameOnAll(ls: seq<Listing>, p: Listing -> bool, q: Listing -> bool)
    requires forall k :: 0 <= k < |ls| ==> p(ls[k]) == q(ls[k])
    ensures Filter(ls, p) == Filter(ls, q)
    decreases |ls|
  {
    if |ls| > 0 {
      FilterSameOnAll(ls[1..], p, q);
    }
  }

  /** With the filter 'all' and an empty search, every listing is shown, once every listing has a title. */
  lemma InitialFiltersShowAll(ls: seq<Listing>)
    requires forall k :: 0 <= k < |ls| ==> ls[k].title.Some?
    ensures FilteredListings(ls, "", "all") == Some(ls)
  {
    forall k | 0 <= k < |ls| ensures SearchOutcome(ls[k], "") == Some(true) {
      EmptySearchMatchesTitled(ls[k]);
    }
  }

  /** A filter type outside the four the page offers matches nothing (when the render does not throw). */
  lemma UnknownFilterShowsNothing(ls: seq<Listing>, term: string, filterType: string)
    requires filterType !in {"all", "urgent", "in_progress", "new"}
    ensures var r := FilteredListings(ls, term, filterType); r.Some? ==> r.value == []
  {
  }

  // ---------------------------------------------------------------------------
  // Badge and button
  // ---------------------------------------------------------------------------

  /** The status badges, with their captions. */
  datatype Badge = NewBadge | InProgressBadge | CompletedBadge {
    function Caption(): string {
      match this
      case NewBadge => "New"
      case InProgressBadge => "In Progress"
      case CompletedBadge => "Completed"
    }
  }

  /** `getStatusBadge(status)`: a badge for 'new', 'in_progress' and 'completed', and `null` otherwise. */
  function StatusBadge(status: string): (b: Option<Badge>)
    ensures b.Some? <==> status in {"new", "in_progress", "completed"}
    ensures b == Some(NewBadge) <==> status == "new"
    ensures b == Some(InProgressBadge) <==> status == "in_progress"
    ensures b == Some(CompletedBadge) <==> status == "completed"
  {
    if status == "new" then Some(NewBadge)
    else if status == "in_progress" then Some(InProgressBadge)
    else if status == "completed" then Some(CompletedBadge)
    else None
  }

  /** The caption of a listing's button. */
  function ButtonLabel(status: string): (s: string)
    ensures s == "Continue Survey" <==> status == "in_progress"
    ensures s == "Start Survey" <==> status != "in_progress"
  {
    if status == "in_progress" then "Continue Survey" else "Start Survey"
  }

  /** The button offers to continue exactly when the badge says "In Progress". */
  lemma ContinueIffInProgressBadge(status: string)
    ensures ButtonLabel(status) == "Continue Survey" <==> StatusBadge(status) == Some(InProgressBadge)
    ensures StatusBadge(status).Some? && StatusBadge(status).value.Caption() == "In Progress"
      ==> ButtonLabel(status) == "Continue Survey"
  {
  }

  // ---------------------------------------------------------------------------
  // The button's link
  // ---------------------------------------------------------------------------

  /** The link the button follows, as written: `/survey/<id>/answer`. */
  function AnswerLinkAsWritten(id: string): string {
    "/survey/" + id + "/answer"
  }

  /** The button's link, as written, matches no route, so it lands on the catch-all redirect to `/landing`. */
  lemma AnswerLinkHitsCatchAll(id: string)
    ensures App.RouteFor(AnswerLinkAsWritten(id)) == App.Redirect("/landing")
  {
    var p := AnswerLinkAsWritten(id);
    assert p[1] == 's' && p[2] == 'u' && p[7] == '/';
    assert |p| >= 15;
    assert !App.IsAnswerPath(p) by {
      if |p| > |App.AnswerPrefix| {
        assert p[..|App.AnswerPrefix|][7] == '/';
      }
    }
  }

  /** The link the route table serves the answer page on: `/surveys/answer/<id>`. */
  function AnswerLink(id: string): (p: string)
    requires id != "" && '/' !in id
    ensures App.RouteFor(p) == App.Guarded(None, App.SurveyAnswerPage(id))
  {
    var p := App.AnswerPrefix + id;
    assert p[..|App.AnswerPrefix|] == App.AnswerPrefix;
    assert p[|App.AnswerPrefix|..] == id;
    assert p[1] == 's' && p[2] == 'u' && |p| > 16;
    p
  }

  /** A signed-in user who follows the corrected link reaches the answer page for that survey. */
  lemma AnswerLinkReachesAnswerPage(auth: App.Auth, id: string)
    requires id != "" && '/' !in id
    requires !auth.loading && auth.user.Some?
    ensures App.Visit(auth, AnswerLink(id)) == App.Shows(App.SurveyAnswerPage(id))
  {
  }

  // ---------------------------------------------------------------------------
  // The sign-in gate
  // ---------------------------------------------------------------------------

  /**
   * What the page shows: the sign-in prompt, the filtered list, or nothing
   * at all because the filter, which runs before the gate, threw.
   */
  datatype PageView = SignInPrompt | SurveyList(shown: seq<Listing>) | RenderFails

  /**
   * `session` read from the authentication context, which publishes only
   * `{user, loading}`: always undefined.
   */
  function ContextSession(auth: App.Auth): Option<string> {
    None
  }

  /**
   * The page as written: the list is filtered first, then the gate on
   * `session` picks the prompt or the list.
   */
  function ViewAsWritten(session: Option<string>, ls: seq<Listing>, term: string, filterType: string): (v: PageView)
    ensures v == RenderFails <==> exists k :: 0 <= k < |ls| && SearchThrows(ls[k], term)
    ensures v == SignInPrompt <==> session.None? && FilteredListings(ls, term, filterType).Some?
    ensures v.SurveyList? ==> session.Some? && Some(v.shown) == FilteredListings(ls, term, filterType)
  {
    var filtered := FilteredListings(ls, term, filterType);
    if filtered.None? then RenderFails
    else if session.None? then SignInPrompt
    else SurveyList(filtered.value)
  }

  /**
   * With the context the application provides, the page never shows its
   * list, whoever is signed in: it shows the prompt, or fails when a listing
   * makes the filter throw.
   */
  lemma ListNeverShown(auth: App.Auth, ls: seq<Listing>, term: string, filterType: string)
    ensures !ViewAsWritten(ContextSession(auth), ls, term, filterType).SurveyList?
    ensures ViewAsWritten(ContextSession(auth), ls, term, filterType) == SignInPrompt
      <==> forall k :: 0 <= k < |ls| ==> !SearchThrows(ls[k], term)
  {
  }

  /** The gate keyed on the signed-in user, which the context does publish; the filter still runs first. */
  function View(auth: App.Auth, ls: seq<Listing>, term: string, filterType: string): (v: PageView)
    ensures v == RenderFails <==> exists k :: 0 <= k < |ls| && SearchThrows(ls[k], term)
    ensures v == SignInPrompt <==> auth.user.None? && FilteredListings(ls, term, filterType).Some?
    ensures v.SurveyList? ==> auth.user.Some? && Some(v.shown) == FilteredListings(ls, term, filterType)
  {
    ViewAsWritten(if auth.user.Some? then Some(auth.user.value.id) else None, ls, term, filterType)
  }

  /**
   * Behind the route guard the corrected gate shows the list exactly when
   * the filter does not throw, and then the list is the filtered one.
   */
  lemma GuardedPageShowsList(auth: App.Auth, ls: seq<Listing>, term: string, filterType: string)
    requires App.ProtectedRoute(auth, None) == App.RenderChildren
    ensures View(auth, ls, term, filterType).SurveyList? <==> FilteredListings(ls, term, filterType).Some?
    ensures FilteredListings(ls, term, filterType).Some? ==>
      View(auth, ls, term, filterType) == SurveyList(FilteredListings(ls, term, filterType).value)
  {
  }
}

=== FILE: common.dfy ===
/**
 * Shared vocabulary of the survey-management views: optional values, the
 * dynamically typed values the views keep in their answer maps, JavaScript
 * truthiness, the string helpers the list filters use (lower-casing and
 * substring search), the `Math.round` percentage, and order-preserving
 * filtering of lists.
 */
module Common {

  /** A value that may be absent (`null` / `undefined` in the views). */
  datatype Option<+T> = None | Some(value: T) {
    function GetOr(default: T): T {
      match this
      case Some(v) => v
      case None => default
    }
  }

  /**
   * A JavaScript value as it is stored in an answer map or a response row:
   * a rating is a number, a text answer a string, a multiple-choice answer an
   * option id, and a checkbox answer an array of option ids.
   */
  datatype Value = Null | Bool(b: bool) | Num(n: int) | Str(s: string) | Arr(items: seq<Value>)

  /** JavaScript truthiness: `null`, `false`, `0` and `''` are falsy; every array is truthy. */
  predicate Truthy(v: Value) {
    match v
    case Null => false
    case Bool(b) => b
    case Num(n) => n != 0
    case Str(s) => s != ""
    case Arr(_) => true
  }

  /** The value of `x || fallback` for a string that may be missing. */
  function StrOr(x: Option<string>, fallback: string): (r: string)
    ensures x.Some? && x.value != "" ==> r == x.value
    ensures (x.None? || x.value == "") ==> r == fallback
  {
    if x.Some? && x.value != "" then x.value else fallback
  }

  // ---------------------------------------------------------------------------
  // Strings
  // ---------------------------------------------------------------------------

  /** `toLowerCase` on one character (the ASCII letters only). */
  function LowerChar(c: char): char {
    if 'A' <= c <= 'Z' then (c as int + 32) as char else c
  }

  /** `s.toLowerCase()`, character by character. */
  function Lower(s: string): (r: string)
    ensures |r| == |s|
    ensures forall i :: 0 <= i < |s| ==> r[i] == LowerChar(s[i])
  {
    seq(|s|, i requires 0 <= i < |s| => LowerChar(s[i]))
  }

  /** `needle` occurs in `hay` starting at position `i`. */
  ghost predicate OccursAt(hay: string, needle: string, i: int) {
    0 <= i && i + |needle| <= |hay| && hay[i..i + |needle|] == needle
  }

  /** `hay.includes(needle)`: the search tries every start position from the left. */
  function Includes(hay: string, needle: string): (r: bool)
    ensures r <==> exists i :: OccursAt(hay, needle, i)
    decreases |hay|
  {
    if |needle| > |hay| then
      false
    else if hay[..|needle|] == needle then
      assert OccursAt(hay, needle, 0);
      true
    else
      OccursAtShift(hay, needle);
      Includes(hay[1..], needle)
  }

  /** When `needle` does not start `hay`, its occurrences are those in `hay[1..]`, shifted by one. */
  lemma OccursAtShift(hay: string, needle: string)
    requires |needle| <= |hay|
    requires hay[..|needle|] != needle
    ensures (exists i :: OccursAt(hay, needle, i)) <==> (exists j :: OccursAt(hay[1..], needle, j))
  {
    var tail := hay[1..];
    forall j | OccursAt(tail, needle, j)
      ensures OccursAt(hay, needle, j + 1)
    {
      assert tail[j..j + |needle|] == hay[j + 1..j + 1 + |needle|];
    }
    forall i | OccursAt(hay, needle, i)
      ensures OccursAt(tail, needle, i - 1)
    {
      assert i != 0;
      assert tail[i - 1..i - 1 + |needle|] == hay[i..i + |needle|];
    }
  }

  /** The empty string occurs in every string, so `s.includes('')` always holds. */
  lemma EmptyNeedleAlwaysIncluded(hay: string)
    ensures Includes(hay, "")
  {
  }

  /** Case-insensitive search as the list filters write it: `a.toLowerCase().includes(b.toLowerCase())`. */
  predicate ContainsIgnoringCase(hay: string, term: string) {
    Includes(Lower(hay), Lower(term))
  }

  // ---------------------------------------------------------------------------
  // Percentages
  // ---------------------------------------------------------------------------

  /**
   * `Math.round(part / whole * 100)` for a non-negative ratio: the integer
   * nearest to 100 * part / whole, with halves rounded up.
   */
  function RoundPercent(part: nat, whole: nat): (r: nat)
    requires whole > 0
    ensures 2 * whole * r <= 200 * part + whole < 2 * whole * (r + 1)
  {
    (200 * part + whole) / (2 * whole)
  }

  /** A share of at most the whole rounds to at most 100 percent. */
  lemma RoundPercentAtMost100(part: nat, whole: nat)
    requires 0 < whole
    requires part <= whole
    ensures RoundPercent(part, whole) <= 100
  {
    var r := RoundPercent(part, whole);
    if r > 100 {
      assert 2 * whole * r >= 2 * whole * 101 by {
        MulMonotone(2 * whole, 101, r);
      }
      assert false;
    }
  }

  /** A larger share never rounds to a smaller percentage. */
  lemma RoundPercentMonotone(part: nat, more: nat, whole: nat)
    requires 0 < whole
    requires part <= more
    ensures RoundPercent(part, whole) <= RoundPercent(more, whole)
  {
    var r1 := RoundPercent(part, whole);
    var r2 := RoundPercent(more, whole);
    if r1 > r2 {
      MulMonotone(2 * whole, r2 + 1, r1);
      assert false;
    }
  }

  /** Multiplying by a non-negative factor keeps order. */
  lemma MulMonotone(c: nat, a: nat, b: nat)
    requires a <= b
    ensures c * a <= c * b
  {
  }

  // ---------------------------------------------------------------------------
  // Lists
  // ---------------------------------------------------------------------------

  /** `r` can be obtained from `s` by dropping elements, keeping the order of the rest. */
  predicate IsSubseq<T(==)>(r: seq<T>, s: seq<T>)
    decreases |s|
  {
    if |s| == 0 then |r| == 0
    else (|r| > 0 && r[0] == s[0] && IsSubseq(r[1..], s[1..])) || IsSubseq(r, s[1..])
  }

  /** `s.filter(p)`: the elements of `s` that satisfy `p`, in their original order. */
  function Filter<T(==)>(s: seq<T>, p: T -> bool): (r: seq<T>)
    ensures |r| <= |s|
    ensures forall i :: 0 <= i < |r| ==> r[i] in s && p(r[i])
    ensures forall i :: 0 <= i < |s| && p(s[i]) ==> s[i] in r
    ensures IsSubseq(r, s)
    ensures (forall i :: 0 <= i < |s| ==> p(s[i])) ==> r == s
    decreases |s|
  {
    if |s| == 0 then []
    else if p(s[0]) then
      var rest := Filter(s[1..], p);
      assert [s[0]] + rest == s[..1] + rest;
      assert ([s[0]] + rest)[1..] == rest;
      [s[0]] + rest
    else
      Filter(s[1..], p)
  }

  /**
   * `s.filter(p)` keeps every copy of an element that satisfies `p` and no
   * copy of one that does not: with IsSubseq this fixes the result exactly.
   */
  lemma {:induction false} FilterCounts<T>(s: seq<T>, p: T -> bool)
    ensures forall x :: x in s ==> multiset(Filter(s, p))[x] == if p(x) then multiset(s)[x] else 0
    decreases |s|
  {
    if |s| > 0 {
      FilterCounts(s[1..], p);
      assert s == [s[0]] + s[1..];
      assert multiset(s) == multiset{s[0]} + multiset(s[1..]);
      if p(s[0]) {
        assert multiset(Filter(s, p)) == multiset{s[0]} + multiset(Filter(s[1..], p));
      }
    }
  }

  /** Filtering a concatenation filters each part. */
  lemma {:induction false} FilterAppend<T>(a: seq<T>, b: seq<T>, p: T -> bool)
    ensures Filter(a + b, p) == Filter(a, p) + Filter(b, p)
    decreases |a|
  {
    if |a| == 0 {
      assert a + b == b;
    } else {
      assert (a + b)[0] == a[0];
      assert (a + b)[1..] == a[1..] + b;
      FilterAppend(a[1..], b, p);
    }
  }
}

=== FILE: landing_page.dfy ===
/**
 * The landing page: where a signed-in user is sent (on arrival and after
 * logging in), and the outcome of the login and sign-up forms given the
 * backend's replies.
 */
module LandingPage {
  import opened Common
  import App

  /** The dashboard of a role: admin and staff have their own, every other role goes to the student one. */
  function DashboardPath(role: string): (p: string)
    ensures role == "admin" <==> p == "/admin-dashboard"
    ensures role == "staff" <==> p == "/staff-dashboard"
    ensures role != "admin" && role != "staff" <==> p == "/student-dashboard"
  {
    if role == "admin" then "/admin-dashboard"
    else if role == "staff" then "/staff-dashboard"
    else "/student-dashboard"
  }

  /** The arrival effect: a signed-in user is sent on by `user.role`, compared as is (a null role is no match). */
  function AutoRedirect(user: Option<App.AuthUser>): (to: Option<string>)
    ensures to.None? <==> user.None?
    ensures user.Some? && user.value.role == Some("admin") ==> to == Some("/admin-dashboard")
    ensures user.Some? && user.value.role == Some("staff") ==> to == Some("/staff-dashboard")
    ensures user.Some? && user.value.role != Some("admin") && user.value.role != Some("staff")
      ==> to == Some("/student-dashboard")
  {
    match user
    case None => None
    case Some(u) =>
      if u.role == Some("admin") then Some("/admin-dashboard")
      else if u.role == Some("staff") then Some("/staff-dashboard")
      else Some("/student-dashboard")
  }

  // ---------------------------------------------------------------------------
  // Login
  // ---------------------------------------------------------------------------

  /** `!userId` is false: the id is present and not the empty string. */
  predicate HasId(userId: Option<string>) {
    userId.Some? && userId.value != ""
  }

  /** The reply to `signInWithPassword`: an error (whose message may be empty), or a session whose user id may be missing. */
  datatype SignInReply = SignInError(message: string) | SignedIn(userId: Option<string>)

  /** The reply to the role lookup: an error, or the row's role (null for a missing row or role). */
  datatype RoleReply = RoleError(message: string) | RoleRow(role: Option<string>)

  /** What the login handler leaves behind: the error shown, where it navigates, and the `loading` flag. */
  datatype LoginOutcome = LoginOutcome(error: string, navigatesTo: Option<string>, loading: bool)

  /** `err.message || fallback` */
  function ErrorText(message: string, fallback: string): (t: string)
    ensures message != "" ==> t == message
    ensures message == "" ==> t == fallback
  {
    if message != "" then message else fallback
  }

  /** The role the login uses: `user?.role || 'student'`. */
  function LoginRole(role: Option<string>): (r: string)
    ensures r != ""
    ensures role.Some? && role.value != "" ==> r == role.value
    ensures role.None? || role.value == "" ==> r == "student"
  {
    StrOr(role, "student")
  }

  /**
   * `handleLogin`: either an error and no navigation, or no error and the
   * dashboard of the looked-up role; `loading` always ends false.
   * `roleReply` is only read once sign-in has produced a user id.
   */
  function HandleLogin(signIn: SignInReply, roleReply: RoleReply): (o: LoginOutcome)
    ensures !o.loading
    ensures o.navigatesTo.Some? <==> o.error == ""
    ensures signIn.SignInError? ==> o.error == ErrorText(signIn.message, "Login failed.")
    ensures signIn.SignedIn? && !HasId(signIn.userId) ==> o.error == "Login failed"
    ensures signIn.SignedIn? && HasId(signIn.userId) && roleReply.RoleError? ==>
      o.error == ErrorText(roleReply.message, "Login failed.")
    ensures signIn.SignedIn? && HasId(signIn.userId) && roleReply.RoleRow? ==>
      o.navigatesTo == Some(DashboardPath(LoginRole(roleReply.role)))
  {
    match signIn
    case SignInError(m) => LoginOutcome(ErrorText(m, "Login failed."), None, false)
    case SignedIn(userId) =>
      if !HasId(userId) then LoginOutcome("Login failed", None, false)
      else
        match roleReply
        case RoleError(m) => LoginOutcome(ErrorText(m, "Login failed."), None, false)
        case RoleRow(role) => LoginOutcome("", Some(DashboardPath(LoginRole(role))), false)
  }

  /**
   * Logging in and arriving signed in send a user to the same dashboard,
   * whether the role is set, empty or null.
   */
  lemma LoginAndAutoRedirectAgree(u: App.AuthUser, userId: string)
    requires userId != ""
    ensures HandleLogin(SignedIn(Some(userId)), RoleRow(u.role)).navigatesTo == AutoRedirect(Some(u))
  {
  }

  // ---------------------------------------------------------------------------
  // Sign-up
  // ---------------------------------------------------------------------------

  /** The sign-up form. */
  datatype SignupForm = SignupForm(fullName: string, email: string, password: string, confirmPassword: string, role: string)

  /** The reply to `signUp`: an error, or a result whose user id may be missing. */
  datatype SignUpReply = SignUpError(message: string) | SignedUp(userId: Option<string>)

  /** The row the sign-up inserts into `users`. */
  datatype NewUser = NewUser(id: string, fullName: string, email: string, role: string)

  /**
   * What the sign-up handler leaves behind: the error shown, whether it asked
   * the backend to sign up, the row it asked to insert, whether it alerted success,
   * which form is open, and `loading`.
   */
  datatype SignupOutcome = SignupOutcome(
    error: string,
    calledSignUp: bool,
    inserted: Option<NewUser>,
    alerted: bool,
    showSignup: bool,
    showLogin: bool,
    loading: bool)

  /**
   * `handleSignup`. `insertError` is the insert's error message, if it
   * failed; the replies are only read once the step before them succeeded.
   * On success the sign-up form closes and the login form opens; on any
   * failure both stay as they were.
   */
  function HandleSignup(
    form: SignupForm, showSignup: bool, showLogin: bool,
    signUp: SignUpReply, insertError: Option<string>)
    : (o: SignupOutcome)
    ensures !o.loading
    ensures form.password != form.confirmPassword ==>
      o.error == "Passwords do not match" && !o.calledSignUp && o.inserted.None?
    ensures form.password == form.confirmPassword ==> o.calledSignUp
    ensures o.alerted <==> o.error == ""
    ensures o.alerted ==> !o.showSignup && o.showLogin
    ensures !o.alerted ==> o.showSignup == showSignup && o.showLogin == showLogin
    ensures o.inserted.Some? ==>
      && signUp.SignedUp? && HasId(signUp.userId)
      && o.inserted.value == NewUser(signUp.userId.value, form.fullName, form.email, form.role)
    ensures o.alerted <==>
      form.password == form.confirmPassword && signUp.SignedUp? && HasId(signUp.userId) && insertError.None?
    ensures form.password == form.confirmPassword && signUp.SignUpError? ==>
      o.error == ErrorText(signUp.message, "Signup failed.")
    ensures form.password == form.confirmPassword && signUp.SignedUp? && !HasId(signUp.userId) ==>
      o.error == "Signup failed"
    ensures form.password == form.confirmPassword && signUp.SignedUp? && HasId(signUp.userId) && insertError.Some? ==>
      o.error == ErrorText(insertError.value, "Signup failed.")
  {
    if form.password != form.confirmPassword then
      SignupOutcome("Passwords do not match", false, None, false, showSignup, showLogin, false)
    else
      match signUp
      case SignUpError(m) => SignupOutcome(ErrorText(m, "Signup failed."), true, None, false, showSignup, showLogin, false)
      case SignedUp(userId) =>
        if !HasId(userId) then SignupOutcome("Signup failed", true, None, false, showSignup, showLogin, false)
        else
          var row := NewUser(userId.value, form.fullName, form.email, form.role);
          match insertError
          case Some(m) => SignupOutcome(ErrorText(m, "Signup failed."), true, Some(row), false, showSignup, showLogin, false)
          case None => SignupOutcome("", true, Some(row), true, false, true, false)
  }

  /**
   * Sign-up and login fit together: when the login's role lookup reads back
   * the row a successful sign-up inserted, the user lands on the dashboard of
   * the role chosen in the sign-up form.
   */
  lemma SignupThenLoginReachesChosenDashboard(form: SignupForm, id: string, showSignup: bool, showLogin: bool)
    requires form.password == form.confirmPassword
    requires id != ""
    ensures var o := HandleSignup(form, showSignup, showLogin, SignedUp(Some(id)), None);
      && o.alerted
      && o.inserted.Some? && o.inserted.value.id == id
      && HandleLogin(SignedIn(Some(id)), RoleRow(Some(o.inserted.value.role))).navigatesTo
           == Some(DashboardPath(form.role))
  {
  }

  /**
   * `!userId` also holds for the empty string: a session or sign-up result
   * with an empty id fails exactly like one without an id, whatever the
   * later replies would have been.
   */
  lemma EmptyIdFailsLikeMissingId(roleReply: RoleReply, form: SignupForm, showSignup: bool, showLogin: bool, insertError: Option<string>)
    ensures HandleLogin(SignedIn(Some("")), roleReply) == HandleLogin(SignedIn(None), roleReply)
    ensures HandleLogin(SignedIn(Some("")), roleReply) == LoginOutcome("Login failed", None, false)
    ensures HandleSignup(form, showSignup, showLogin, SignedUp(Some("")), insertError)
         == HandleSignup(form, showSignup, showLogin, SignedUp(None), insertError)
    ensures form.password == form.confirmPassword ==>
      var o := HandleSignup(form, showSignup, showLogin, SignedUp(Some("")), insertError);
      o.error == "Signup failed" && o.inserted.None? && !o.alerted
  {
  }
}

=== FILE: navigation.dfy ===
/**
 * How the pages' links and redirects meet the route guard: the dashboard a
 * role is sent to, and where each sidebar entry actually leads.
 */
module Navigation {
  import opened Common
  import App
  import LandingPage
  import Sidebar

  /** A settled context with a signed-in user whose role is `role`. */
  predicate SignedInAs(auth: App.Auth, role: Option<string>) {
    !auth.loading && auth.user.Some? && auth.user.value.role == role
  }

  /** The dashboard page each of the three roles is meant to see. */
  function DashboardPageOf(role: string): App.Page {
    if role == "admin" then App.AdminDashboardPage
    else if role == "staff" then App.StaffDashboardPage
    else App.StudentDashboardPage
  }

  /** For admin, staff and student, the dashboard the landing page picks is one the guard lets that role in to. */
  lemma DashboardsAdmitTheirRole(auth: App.Auth, role: string)
    requires role in {"admin", "staff", "student"}
    requires SignedInAs(auth, Some(role))
    ensures App.Visit(auth, LandingPage.DashboardPath(role)) == App.Shows(DashboardPageOf(role))
    ensures App.Visit(auth, LandingPage.AutoRedirect(auth.user).value) == App.Shows(DashboardPageOf(role))
  {
  }

  /**
   * A user whose role is null or not one of the three is sent to the student
   * dashboard (on arrival, and by a login whose session carries an id), which
   * bounces them to the generic dashboard, which shows.
   */
  lemma OtherRolesEndOnGenericDashboard(auth: App.Auth, role: Option<string>)
    requires SignedInAs(auth, role)
    requires role !in {Some("admin"), Some("staff"), Some("student")}
    ensures LandingPage.AutoRedirect(auth.user) == Some("/student-dashboard")
    ensures auth.user.value.id != "" ==>
      LandingPage.HandleLogin(LandingPage.SignedIn(Some(auth.user.value.id)), LandingPage.RoleRow(role)).navigatesTo
        == Some("/student-dashboard")
    ensures App.Visit(auth, "/student-dashboard") == App.NavigatesTo("/dashboard")
    ensures App.Visit(auth, "/dashboard") == App.Shows(App.DashboardPage)
  {
  }

  /** The sidebar entries that no route matches: they fall to the catch-all. */
  const UnroutedPaths := {"/settings", "/responses", "/analytics", "/notifications"}

  /** Every unrouted entry sends the browser to `/landing`, whoever is signed in. */
  lemma UnroutedEntriesGoToLanding(auth: App.Auth, path: string)
    requires path in UnroutedPaths
    ensures App.Visit(auth, path) == App.NavigatesTo("/landing")
  {
  }

  /** The staff menu offers "Create Survey", but the guard of that path asks for admin and bounces staff to `/dashboard`. */
  lemma StaffCreateEntryBounces(auth: App.Auth)
    requires SignedInAs(auth, Some("staff"))
    ensures Sidebar.MenuItem("/surveys/create", "Create Survey") in Sidebar.MenuFor("staff")
    ensures App.Visit(auth, "/surveys/create") == App.NavigatesTo("/dashboard")
  {
  }

  /**
   * Where each entry of a role's menu leads, for a user signed in with that
   * role: the page, except the unrouted entries (to `/landing`) and the
   * staff "Create Survey" entry (to `/dashboard`).
   */
  lemma MenuEntriesReachPages(auth: App.Auth, role: string, k: int)
    requires SignedInAs(auth, Some(role))
    requires 0 <= k < |Sidebar.MenuFor(role)|
    ensures var path := Sidebar.MenuFor(role)[k].path;
      App.Visit(auth, path).Shows? <==> path !in UnroutedPaths && !(role == "staff" && path == "/surveys/create")
  {
    var path := Sidebar.MenuFor(role)[k].path;
    if path in UnroutedPaths {
      UnroutedEntriesGoToLanding(auth, path);
    } else if role == "admin" {
      assert path in {"/admin-dashboard", "/user-management", "/surveys", "/ai-analytics", "/reports"};
    } else if role == "staff" {
      assert path in {"/staff-dashboard", "/surveys", "/surveys/create"};
    } else if role == "student" {
      assert path in {"/student-dashboard", "/available-surveys", "/my-responses"};
    } else {
      assert path == "/dashboard";
    }
  }
}

=== FILE: reports.dfy ===
/**
 * The aggregation behind the report export: per-question answer counts over
 * the survey's responses and, for each option, the rounded share of
 * responses that chose it.
 */
module Reports {
  import opened Common

  /** An option row of a question, as the report reads it (`{id, option_text}`). */
  datatype ReportOption = ReportOption(id: Value, text: string)

  /** A question row; `options` may be missing. */
  datatype ReportQuestion = ReportQuestion(id: string, text: string, options: Option<seq<ReportOption>>)

  /** A `survey_responses` row: its `answers` object, keyed by question id. */
  datatype ResponseRow = ResponseRow(answers: map<string, Value>)

  /** The header fields copied from the survey row. */
  datatype SurveyHeader = SurveyHeader(title: string, createdBy: string, department: string, startDate: string, endDate: string)

  datatype OptionResult = OptionResult(name: string, percent: nat)

  datatype QuestionResult = QuestionResult(text: string, responses: seq<OptionResult>)

  /** The report data: the survey part and the responses part (`avgTime` and the fixed analysis left out). */
  datatype ReportData = ReportData(
    header: SurveyHeader,
    questions: nat,
    questionResults: seq<QuestionResult>,
    total: nat,
    completionRate: nat)

  /** `r.answers[q.id]`: a missing entry reads as `undefined`, which behaves as `null` here. */
  function AnswerOf(r: ResponseRow, qid: string): Value {
    if qid in r.answers then r.answers[qid] else Null
  }

  // ---------------------------------------------------------------------------
  // The reference tally
  // ---------------------------------------------------------------------------

  /** How many times `k` occurs in `items`. */
  function Occurrences(items: seq<Value>, k: Value): nat
    decreases |items|
  {
    if |items| == 0 then 0
    else (if items[0] == k then 1 else 0) + Occurrences(items[1..], k)
  }

  /** What one answer adds to the count of `k`: each array element counts, a truthy scalar counts itself. */
  function Contribution(ans: Value, k: Value): nat {
    if ans.Arr? then Occurrences(ans.items, k)
    else if Truthy(ans) && ans == k then 1
    else 0
  }

  /** The number of times `k` was chosen for question `qid` across the responses. */
  function Tally(rs: seq<ResponseRow>, qid: string, k: Value): nat
    decreases |rs|
  {
    if |rs| == 0 then 0
    else Contribution(AnswerOf(rs[0], qid), k) + Tally(rs[1..], qid, k)
  }

  // ---------------------------------------------------------------------------
  // The page's counting loop
  // ---------------------------------------------------------------------------

  /** The `responseCounts` object. */
  type Counts = map<Value, nat>

  /** `responseCounts[k] || 0` */
  function Lookup(m: Counts, k: Value): nat {
    if k in m then m[k] else 0
  }

  /** `responseCounts[a] = (responseCounts[a] || 0) + 1` */
  function Bump(m: Counts, a: Value): Counts {
    m[a := Lookup(m, a) + 1]
  }

  /** `ans.forEach(a => …bump a…)` */
  function BumpAll(m: Counts, items: seq<Value>): Counts
    decreases |items|
  {
    if |items| == 0 then m else BumpAll(Bump(m, items[0]), items[1..])
  }

  /** The body of `responsesData.forEach` for one response. */
  function CountAnswer(m: Counts, ans: Value): Counts {
    if ans.Arr? then BumpAll(m, ans.items)
    else if Truthy(ans) then Bump(m, ans)
    else m
  }

  lemma {:induction false} BumpAllAddsOccurrences(m: Counts, items: seq<Value>, k: Value)
    ensures Lookup(BumpAll(m, items), k) == Lookup(m, k) + Occurrences(items, k)
    decreases |items|
  {
    if |items| > 0 {
      BumpAllAddsOccurrences(Bump(m, items[0]), items[1..], k);
    }
  }

  /** Visiting one response adds that response's contribution to every key. */
  lemma CountAnswerAdds(m: Counts, ans: Value)
    ensures forall k :: Lookup(CountAnswer(m, ans), k) == Lookup(m, k) + Contribution(ans, k)
  {
    forall k ensures Lookup(CountAnswer(m, ans), k) == Lookup(m, k) + Contribution(ans, k) {
      if ans.Arr? { BumpAllAddsOccurrences(m, ans.items, k); }
    }
  }

  /**
   * `responseCounts` after visiting every response, starting from `m`: the
   * counting loop adds, for every key, exactly the reference tally.
   */
  function ResponseCounts(m: Counts, rs: seq<ResponseRow>, qid: string): (r: Counts)
    ensures forall k :: Lookup(r, k) == Lookup(m, k) + Tally(rs, qid, k)
    decreases |rs|
  {
    if |rs| == 0 then m
    else
      var next := CountAnswer(m, AnswerOf(rs[0], qid));
      CountAnswerAdds(m, AnswerOf(rs[0], qid));
      ResponseCounts(next, rs[1..], qid)
  }

  // ---------------------------------------------------------------------------
  // Percentages and results
  // ---------------------------------------------------------------------------

  /** `totalResponses > 0 ? Math.round(count / totalResponses * 100) : 0` */
  function Percent(count: nat, total: nat): (p: nat)
    ensures total == 0 ==> p == 0
    ensures total > 0 ==> 2 * total * p <= 200 * count + total < 2 * total * (p + 1)
  {
    if total > 0 then RoundPercent(count, total) else 0
  }

  /**
   * The `questionResults` entry of one question: its text and, for each of its
   * options in order, the rounded share of responses that chose the option.
   */
  function QuestionResultFor(q: ReportQuestion, rs: seq<ResponseRow>): (r: QuestionResult)
    ensures r.text == q.text
    ensures q.options.None? ==> r.responses == []
    ensures q.options.Some? ==>
      && |r.responses| == |q.options.value|
      && forall i :: 0 <= i < |q.options.value| ==>
           && r.responses[i].name == q.options.value[i].text
           && r.responses[i].percent == Percent(Tally(rs, q.id, q.options.value[i].id), |rs|)
  {
    var counts := ResponseCounts(map[], rs, q.id);
    match q.options
    case None => QuestionResult(q.text, [])
    case Some(os) =>
      QuestionResult(q.text,
        seq(|os|, i requires 0 <= i < |os| => OptionResult(os[i].text, Percent(Lookup(counts, os[i].id), |rs|))))
  }

  /** The aggregation part of `getSurveyReportData`, once all three fetches succeeded. */
  function BuildReport(header: SurveyHeader, qs: seq<ReportQuestion>, rs: seq<ResponseRow>): (d: ReportData)
    ensures d.header == header
    ensures d.questions == |qs| && d.total == |rs|
    ensures d.completionRate == (if |rs| > 0 then 100 else 0)
    ensures |d.questionResults| == |qs|
    ensures forall k :: 0 <= k < |qs| ==> d.questionResults[k] == QuestionResultFor(qs[k], rs)
  {
    var total := |rs|;
    var completion := if total > 0 then RoundPercent(total, total) else 0;
    ReportData(
      header, |qs|,
      seq(|qs|, k requires 0 <= k < |qs| => QuestionResultFor(qs[k], rs)),
      total, completion)
  }

  /** `getSurveyReportData`: any failed fetch yields `null`. */
  function GetSurveyReportData(
    header: Option<SurveyHeader>, qs: Option<seq<ReportQuestion>>, rs: Option<seq<ResponseRow>>)
    : (d: Option<ReportData>)
    ensures d.Some? <==> header.Some? && qs.Some? && rs.Some?
    ensures d.Some? ==> d.value == BuildReport(header.value, qs.value, rs.value)
  {
    if header.Some? && qs.Some? && rs.Some? then Some(BuildReport(header.value, qs.value, rs.value)) else None
  }

  // ---------------------------------------------------------------------------
  // Properties
  // ---------------------------------------------------------------------------

  /** No response's array for `qid` holds `k` twice. */
  ghost predicate NoRepeats(rs: seq<ResponseRow>, qid: string, k: Value) {
    forall j :: 0 <= j < |rs| ==> Contribution(AnswerOf(rs[j], qid), k) <= 1
  }

  lemma {:induction false} TallyAtMostResponses(rs: seq<ResponseRow>, qid: string, k: Value)
    requires NoRepeats(rs, qid, k)
    ensures Tally(rs, qid, k) <= |rs|
    decreases |rs|
  {
    if |rs| > 0 {
      assert Contribution(AnswerOf(rs[0], qid), k) <= 1;
      assert NoRepeats(rs[1..], qid, k) by {
        forall j | 0 <= j < |rs[1..]| ensures Contribution(AnswerOf(rs[1..][j], qid), k) <= 1 {
          assert rs[1..][j] == rs[j + 1];
        }
      }
      TallyAtMostResponses(rs[1..], qid, k);
    }
  }

  /** When no response repeats an option id, every option's percentage lies in 0..100. */
  lemma PercentsAtMost100(q: ReportQuestion, rs: seq<ResponseRow>)
    requires q.options.Some?
    requires forall i :: 0 <= i < |q.options.value| ==> NoRepeats(rs, q.id, q.options.value[i].id)
    ensures forall i :: 0 <= i < |QuestionResultFor(q, rs).responses| ==>
      QuestionResultFor(q, rs).responses[i].percent <= 100
  {
    var r := QuestionResultFor(q, rs);
    forall i | 0 <= i < |r.responses| ensures r.responses[i].percent <= 100 {
      var k := q.options.value[i].id;
      TallyAtMostResponses(rs, q.id, k);
      if |rs| > 0 { RoundPercentAtMost100(Tally(rs, q.id, k), |rs|); }
    }
  }

  /** A worked example: options A and B, answered A three times and B once, give 75% and 25%. */
  lemma ThreeToOneSplit()
    ensures var q := ReportQuestion("q", "Pick one", Some([ReportOption(Str("A"), "A"), ReportOption(Str("B"), "B")]));
      var a := ResponseRow(map["q" := Str("A")]);
      var b := ResponseRow(map["q" := Str("B")]);
      QuestionResultFor(q, [a, a, a, b]).responses == [OptionResult("A", 75), OptionResult("B", 25)]
  {
  }

  /** With no responses every option shows 0%. */
  lemma NoResponsesGiveZero(q: ReportQuestion)
    requires q.options.Some?
    ensures forall i :: 0 <= i < |QuestionResultFor(q, []).responses| ==> QuestionResultFor(q, []).responses[i].percent == 0
  {
  }
}

=== FILE: sidebar.dfy ===
/**
 * The dashboard sidebar: the role it settles on (from the context profile or
 * its own profile fetch), the menu each role gets, which entry is active, and
 * the role badge.
 */
module Sidebar {
  import opened Common
  import App

  /** One menu entry: where it links and its caption. */
  datatype MenuItem = MenuItem(path: string, caption: string)

  const AdminMenu: seq<MenuItem> := [
    MenuItem("/admin-dashboard", "Dashboard"),
    MenuItem("/user-management", "User Management"),
    MenuItem("/surveys", "Surveys"),
    MenuItem("/ai-analytics", "AI Analytics"),
    MenuItem("/reports", "Reports"),
    MenuItem("/settings", "Settings")]

  const StaffMenu: seq<MenuItem> := [
    MenuItem("/staff-dashboard", "Dashboard"),
    MenuItem("/surveys", "My Surveys"),
    MenuItem("/surveys/create", "Create Survey"),
    MenuItem("/responses", "Responses"),
    MenuItem("/analytics", "Analytics"),
    MenuItem("/notifications", "Notifications")]

  const StudentMenu: seq<MenuItem> := [
    MenuItem("/student-dashboard", "Dashboard"),
    MenuItem("/available-surveys", "Available Surveys"),
    MenuItem("/my-responses", "My Responses"),
    MenuItem("/notifications", "Notifications")]

  const DefaultMenu: seq<MenuItem> := [MenuItem("/dashboard", "Dashboard")]

  // ---------------------------------------------------------------------------
  // The role
  // ---------------------------------------------------------------------------

  /** The role the sidebar starts with: `contextProfile?.role || 'user'`. */
  function InitialRole(contextProfileRole: Option<string>): (role: string)
    ensures role != ""
    ensures contextProfileRole.Some? && contextProfileRole.value != "" ==> role == contextProfileRole.value
    ensures contextProfileRole.None? || contextProfileRole.value == "" ==> role == "user"
  {
    StrOr(contextProfileRole, "user")
  }

  /** `profile` read from the authentication context, which publishes only `{user, loading}`: always undefined. */
  function ContextProfileRole(auth: App.Auth): Option<string> {
    None
  }

  /** The profile fetch runs when there is no profile yet and there is a user. */
  predicate FetchRuns(hasProfile: bool, auth: App.Auth) {
    !hasProfile && auth.user.Some?
  }

  /** How the profile fetch ended: no signed-in user, a row (whose role may be null), or an error. */
  datatype ProfileFetch = NoCurrentUser | RowFound(role: Option<string>) | FetchFailed

  /** The role after the profile fetch: unchanged without a user, the row's role or 'user', and 'user' on error. */
  function RoleAfterFetch(role: string, fetch: ProfileFetch): (r: string)
    ensures fetch.NoCurrentUser? ==> r == role
    ensures fetch.FetchFailed? ==> r == "user"
    ensures fetch.RowFound? && fetch.role.Some? && fetch.role.value != "" ==> r == fetch.role.value
    ensures fetch.RowFound? && (fetch.role.None? || fetch.role.value == "") ==> r == "user"
  {
    match fetch
    case NoCurrentUser => role
    case RowFound(rowRole) => StrOr(rowRole, "user")
    case FetchFailed => "user"
  }

  // ---------------------------------------------------------------------------
  // The menu
  // ---------------------------------------------------------------------------

  /** `menuItems`: the admin, staff or student menu, and the single dashboard entry for any other role. */
  function MenuFor(role: string): (m: seq<MenuItem>)
    ensures role == "admin" ==> m == AdminMenu
    ensures role == "staff" ==> m == StaffMenu
    ensures role == "student" ==> m == StudentMenu
    ensures role !in {"admin", "staff", "student"} ==> m == DefaultMenu
  {
    if role == "admin" then AdminMenu
    else if role == "staff" then StaffMenu
    else if role == "student" then StudentMenu
    else DefaultMenu
  }

  /** Every role gets a menu, and its first entry is a dashboard. */
  lemma EveryRoleHasDashboardFirst(role: string)
    ensures |MenuFor(role)| > 0 && MenuFor(role)[0].caption == "Dashboard"
  {
  }

  /**
   * The role once the mount effect has run. The sidebar's own profile starts
   * as the context's, so the fetch runs exactly when the context has no
   * profile and there is a user; otherwise the initial role stays.
   */
  function SettledRole(contextProfileRole: Option<string>, auth: App.Auth, fetch: ProfileFetch): (r: string)
    ensures !FetchRuns(contextProfileRole.Some?, auth) ==> r == InitialRole(contextProfileRole)
    ensures FetchRuns(contextProfileRole.Some?, auth) ==> r == RoleAfterFetch("user", fetch)
  {
    var initial := InitialRole(contextProfileRole);
    if FetchRuns(contextProfileRole.Some?, auth) then RoleAfterFetch(initial, fetch) else initial
  }

  /**
   * With the application's context (no profile), a signed-in user's sidebar
   * settles on the role of their `users` row, and without a user it keeps the
   * default menu whatever a fetch would have said.
   */
  lemma SidebarSettlesOnRowRole(auth: App.Auth, role: string, fetch: ProfileFetch)
    requires role != ""
    ensures auth.user.Some? ==> SettledRole(ContextProfileRole(auth), auth, RowFound(Some(role))) == role
    ensures auth.user.None? ==> MenuFor(SettledRole(ContextProfileRole(auth), auth, fetch)) == DefaultMenu
  {
  }

  /** A missing role in the profile row, or a failed fetch, leaves the default menu. */
  lemma FallbackRoleGetsDefaultMenu(role: string, fetch: ProfileFetch)
    requires fetch == FetchFailed || fetch == RowFound(None)
    ensures MenuFor(RoleAfterFetch(role, fetch)) == DefaultMenu
  {
  }

  /** With the application's context the sidebar starts with role 'user', hence with the default menu. */
  lemma StartsWithDefaultMenu(auth: App.Auth)
    ensures InitialRole(ContextProfileRole(auth)) == "user"
    ensures MenuFor(InitialRole(ContextProfileRole(auth))) == DefaultMenu
  {
  }

  /**
   * The entries the current location highlights (`isActive(item.path)`):
   * those whose path equals the current path, every copy of them, in menu order.
   */
  function ActiveEntries(m: seq<MenuItem>, current: string): (r: seq<MenuItem>)
    ensures forall k :: 0 <= k < |r| ==> r[k].path == current
    ensures forall k :: 0 <= k < |m| && m[k].path == current ==> m[k] in r
    ensures IsSubseq(r, m)
    ensures forall x :: x in m ==> multiset(r)[x] == if x.path == current then multiset(m)[x] else 0
  {
    var active := (item: MenuItem) => item.path == current;
    FilterCounts(m, active);
    Filter(m, active)
  }

  /** No two entries of a menu share a path. */
  predicate DistinctPaths(m: seq<MenuItem>) {
    forall i, j :: 0 <= i < j < |m| ==> m[i].path != m[j].path
  }

  /** Every role's menu has distinct paths, so at most one entry is highlighted at a time. */
  lemma AtMostOneActive(role: string, current: string, i: int, j: int)
    requires 0 <= i < |MenuFor(role)| && 0 <= j < |MenuFor(role)|
    requires MenuFor(role)[i].path == current && MenuFor(role)[j].path == current
    ensures i == j
  {
  }

  /** In a menu whose paths are distinct, the location highlights at most one entry. */
  lemma {:induction false} DistinctMenuHighlightsAtMostOne(m: seq<MenuItem>, current: string)
    requires DistinctPaths(m)
    ensures |ActiveEntries(m, current)| <= 1
    decreases |m|
  {
    if |m| > 0 {
      DistinctMenuHighlightsAtMostOne(m[1..], current);
    }
  }

  /** Whatever the role and location, the sidebar highlights at most one entry. */
  lemma SidebarHighlightsAtMostOne(role: string, current: string)
    ensures |ActiveEntries(MenuFor(role), current)| <= 1
  {
    DistinctMenuHighlightsAtMostOne(MenuFor(role), current);
  }

  // ---------------------------------------------------------------------------
  // The badge and what is rendered
  // ---------------------------------------------------------------------------

  /** The badge colour: teal for admin, blue for staff, amber for anything else. */
  function BadgeColor(role: string): (c: string)
    ensures c == "#5EE6C5" <==> role == "admin"
    ensures c == "#60A5FA" <==> role == "staff"
    ensures c == "#F59E0B" <==> role != "admin" && role != "staff"
  {
    if role == "admin" then "#5EE6C5" else if role == "staff" then "#60A5FA" else "#F59E0B"
  }

  /** `toUpperCase` on one character (the ASCII letters only). */
  function UpperChar(c: char): char {
    if 'a' <= c <= 'z' then (c as int - 32) as char else c
  }

  /** `role.charAt(0).toUpperCase() + role.slice(1)` */
  function RoleCaption(role: string): (s: string)
    ensures |s| == |role|
    ensures |role| > 0 ==> s[0] == UpperChar(role[0]) && s[1..] == role[1..]
  {
    if |role| == 0 then "" else [UpperChar(role[0])] + role[1..]
  }

  /** The captions of the four roles the application knows. */
  lemma KnownRoleCaptions()
    ensures RoleCaption("admin") == "Admin" && RoleCaption("staff") == "Staff"
    ensures RoleCaption("student") == "Student" && RoleCaption("user") == "User"
  {
  }

  /** The sidebar as drawn: its menu, badge colour and badge caption. */
  datatype SidebarView = SidebarView(menu: seq<MenuItem>, badgeColor: string, badgeCaption: string)

  /** Nothing while authentication is loading; otherwise the sidebar for the settled role. */
  function Render(auth: App.Auth, role: string): (v: Option<SidebarView>)
    ensures v.None? <==> auth.loading
    ensures v.Some? ==>
      v.value.menu == MenuFor(role) && v.value.badgeColor == BadgeColor(role) && v.value.badgeCaption == RoleCaption(role)
  {
    if auth.loading then None else Some(SidebarView(MenuFor(role), BadgeColor(role), RoleCaption(role)))
  }

  /** The badge is amber exactly when the role has the student or the default menu. */
  lemma AmberBadgeIffNonPrivilegedMenu(role: string)
    ensures BadgeColor(role) == "#F59E0B" <==> MenuFor(role) == StudentMenu || MenuFor(role) == DefaultMenu
  {
  }
}

=== FILE: staff_dashboard.dfy ===
/**
 * The staff dashboard: the statistics, the recent-response cards and the
 * per-survey progress bars it derives from its three fetches, and the reset
 * it falls back to when the fetch throws.
 */
module StaffDashboard {
  import opened Common
  import App

  /** A survey row of the signed-in staff member; `responses` and `target` may be null. */
  datatype StaffSurvey = StaffSurvey(id: string, title: string, responses: Option<nat>, target: Option<nat>)

  /** A `survey_responses` row as the dashboard reads it. */
  datatype ResponseRecord = ResponseRecord(
    id: string,
    surveyTitle: Option<string>,
    studentName: Option<string>,
    createdAt: Option<string>,
    reviewed: Value)

  /** The four statistic cards. */
  datatype Stats = Stats(mySurveys: nat, totalResponses: nat, pendingReviews: nat, completionRate: nat)

  const ZeroStats := Stats(0, 0, 0, 0)

  /** The time shown on a recent-response card: the formatted timestamp, or 'Just now' without one. */
  datatype TimeText = JustNow | Formatted(createdAt: string)

  /** A recent-response card. */
  datatype RecentCard = RecentCard(id: string, survey: string, student: string, time: TimeText)

  /** What the dashboard shows once its fetch has ended, and whether it asked for responses at all. */
  datatype Dashboard = Dashboard(
    surveys: seq<StaffSurvey>,
    stats: Stats,
    recent: seq<RecentCard>,
    notifications: seq<string>,
    queriedResponses: bool)

  /** The fetch runs once authentication has settled on a user with an id. */
  predicate FetchRuns(auth: App.Auth) {
    !auth.loading && auth.user.Some? && auth.user.value.id != ""
  }

  // ---------------------------------------------------------------------------
  // Derivation
  // ---------------------------------------------------------------------------

  /** A response still waiting for review: `!r.reviewed`. */
  predicate Pending(r: ResponseRecord) {
    !Truthy(r.reviewed)
  }

  /** `responses.filter(r => !r.reviewed)`: every copy of each unreviewed response, in order. */
  function PendingResponses(responses: seq<ResponseRecord>): (r: seq<ResponseRecord>)
    ensures |r| <= |responses|
    ensures forall k :: 0 <= k < |r| ==> Pending(r[k])
    ensures forall k :: 0 <= k < |responses| && Pending(responses[k]) ==> responses[k] in r
    ensures IsSubseq(r, responses)
    ensures forall x :: x in responses ==> multiset(r)[x] == if Pending(x) then multiset(responses)[x] else 0
  {
    var keep := (x: ResponseRecord) => Pending(x);
    FilterCounts(responses, keep);
    Filter(responses, keep)
  }

  /** `surveyIds.length > 0 ? Math.round(responses / (surveys * 10) * 100) : 0`: responses against a target of ten per survey. */
  function CompletionRate(responses: nat, surveys: nat): (rate: nat)
    ensures surveys == 0 ==> rate == 0
    ensures surveys > 0 ==> 20 * surveys * rate <= 200 * responses + 10 * surveys < 20 * surveys * (rate + 1)
  {
    if surveys > 0 then RoundPercent(responses, 10 * surveys) else 0
  }

  /** With at most ten responses per survey, the completion rate is at most 100. */
  lemma CompletionRateAtMost100(responses: nat, surveys: nat)
    requires responses <= 10 * surveys
    ensures CompletionRate(responses, surveys) <= 100
  {
    if surveys > 0 {
      RoundPercentAtMost100(responses, 10 * surveys);
    }
  }

  /** The card of one response: the defaults stand in for a missing title, name or timestamp. */
  function Card(r: ResponseRecord): (c: RecentCard)
    ensures c.id == r.id
    ensures c.survey == StrOr(r.surveyTitle, "Untitled Survey")
    ensures c.student == StrOr(r.studentName, "Anonymous")
    ensures c.time == JustNow <==> r.createdAt.None? || r.createdAt.value == ""
  {
    RecentCard(
      r.id,
      StrOr(r.surveyTitle, "Untitled Survey"),
      StrOr(r.studentName, "Anonymous"),
      if r.createdAt.Some? && r.createdAt.value != "" then Formatted(r.createdAt.value) else JustNow)
  }

  /** `responses.slice(0, 3).map(…)`: the cards of the first three responses, in order. */
  function RecentCards(responses: seq<ResponseRecord>): (cs: seq<RecentCard>)
    ensures |cs| == if |responses| < 3 then |responses| else 3
    ensures forall k :: 0 <= k < |cs| ==> cs[k] == Card(responses[k])
  {
    var n := if |responses| < 3 then |responses| else 3;
    seq(n, k requires 0 <= k < n => Card(responses[k]))
  }

  /**
   * `fetchDashboardData`, given the three fetches' data (`null` as `None`)
   * and whether the fetch threw: the responses are only asked for when the
   * staff member has at least one survey, and a throw resets everything.
   */
  function DeriveDashboard(
    surveysData: Option<seq<StaffSurvey>>,
    responsesData: Option<seq<ResponseRecord>>,
    notificationsData: Option<seq<string>>,
    threw: bool)
    : (d: Dashboard)
    ensures threw ==> d.surveys == [] && d.stats == ZeroStats && d.recent == [] && d.notifications == []
    ensures !threw ==> d.surveys == surveysData.GetOr([]) && d.notifications == notificationsData.GetOr([])
    ensures !threw ==> (d.queriedResponses <==> |surveysData.GetOr([])| > 0)
    ensures !threw ==> d.stats.mySurveys == |surveysData.GetOr([])|
    ensures !threw && |surveysData.GetOr([])| == 0 ==> d.stats.totalResponses == 0 && d.recent == []
    ensures !threw && |surveysData.GetOr([])| > 0 ==>
      && d.stats.totalResponses == |responsesData.GetOr([])|
      && d.stats.pendingReviews == |PendingResponses(responsesData.GetOr([]))|
      && d.recent == RecentCards(responsesData.GetOr([]))
    ensures !threw ==> d.stats.completionRate == CompletionRate(d.stats.totalResponses, d.stats.mySurveys)
  {
    if threw then Dashboard([], ZeroStats, [], [], false)
    else
      var surveys := surveysData.GetOr([]);
      var asked := |surveys| > 0;
      var responses := if asked then responsesData.GetOr([]) else [];
      var stats := Stats(
        |surveys|,
        |responses|,
        |PendingResponses(responses)|,
        CompletionRate(|responses|, |surveys|));
      Dashboard(surveys, stats, RecentCards(responses), notificationsData.GetOr([]), asked)
  }

  /**
   * What the page renders: the loading text, a render that throws, or the
   * cards over a dashboard state.
   */
  datatype Screen = LoadingText | RenderFails | Cards(d: Dashboard)

  /**
   * A survey row calls `getStatusColor` and a notification row calls
   * `getNotificationIcon`, neither of which is defined anywhere, so
   * rendering either list with an entry throws a ReferenceError.
   */
  predicate RenderThrows(d: Dashboard) {
    |d.surveys| > 0 || |d.notifications| > 0
  }

  /**
   * The screen once the effect has settled. `loading` starts true and only
   * the fetch's `finally` clears it, so without a fetch (authentication still
   * loading, or no user id) the loading text stays for good. After a fetch the
   * derived state renders, unless it has a survey or a notification to list.
   */
  function ShownDashboard(
    auth: App.Auth,
    surveysData: Option<seq<StaffSurvey>>,
    responsesData: Option<seq<ResponseRecord>>,
    notificationsData: Option<seq<string>>,
    threw: bool)
    : (s: Screen)
    ensures s == LoadingText <==> !FetchRuns(auth)
    ensures s == RenderFails <==>
      FetchRuns(auth) && RenderThrows(DeriveDashboard(surveysData, responsesData, notificationsData, threw))
    ensures s.Cards? ==>
      && s.d == DeriveDashboard(surveysData, responsesData, notificationsData, threw)
      && s.d.surveys == [] && s.d.notifications == []
  {
    if !FetchRuns(auth) then LoadingText
    else
      var d := DeriveDashboard(surveysData, responsesData, notificationsData, threw);
      if RenderThrows(d) then RenderFails else Cards(d)
  }

  /**
   * Behind its route guard a user is signed in and authentication has
   * settled. With an empty id the page never leaves its loading text; with an
   * id, a fetch that throws shows the four cards at zero and "No surveys
   * found.", a fetch that returns a survey or a notification fails to render,
   * and whatever cards do render carry zero statistics.
   */
  lemma GuardedDashboardFetches(
    auth: App.Auth, surveysData: Option<seq<StaffSurvey>>, responsesData: Option<seq<ResponseRecord>>,
    notificationsData: Option<seq<string>>, threw: bool)
    requires App.Visit(auth, "/staff-dashboard") == App.Shows(App.StaffDashboardPage)
    ensures auth.user.Some? && !auth.loading
    ensures FetchRuns(auth) <==> auth.user.value.id != ""
    ensures auth.user.value.id == "" ==>
      ShownDashboard(auth, surveysData, responsesData, notificationsData, threw) == LoadingText
    ensures auth.user.value.id != "" ==>
      ShownDashboard(auth, surveysData, responsesData, notificationsData, true) == Cards(Dashboard([], ZeroStats, [], [], false))
    ensures auth.user.value.id != "" ==>
      (ShownDashboard(auth, surveysData, responsesData, notificationsData, false) == RenderFails <==>
         |surveysData.GetOr([])| > 0 || |notificationsData.GetOr([])| > 0)
    ensures ShownDashboard(auth, surveysData, responsesData, notificationsData, threw).Cards? ==>
      ShownDashboard(auth, surveysData, responsesData, notificationsData, threw).d.stats == ZeroStats
  {
    assert App.RouteFor("/staff-dashboard") == App.Guarded(Some("staff"), App.StaffDashboardPage);
  }

  /** Pending reviews never outnumber the responses, and there are never more than three recent cards. */
  lemma PendingAtMostTotal(
    surveysData: Option<seq<StaffSurvey>>, responsesData: Option<seq<ResponseRecord>>,
    notificationsData: Option<seq<string>>, threw: bool)
    ensures var d := DeriveDashboard(surveysData, responsesData, notificationsData, threw);
      d.stats.pendingReviews <= d.stats.totalResponses && |d.recent| <= 3 && |d.recent| <= d.stats.totalResponses
  {
  }

  /** With no surveys every statistic is zero, whatever the response fetch would have said. */
  lemma NoSurveysNoResponses(responsesData: Option<seq<ResponseRecord>>, notificationsData: Option<seq<string>>)
    ensures DeriveDashboard(Some([]), responsesData, notificationsData, false).stats == ZeroStats
    ensures DeriveDashboard(None, responsesData, notificationsData, false).stats == ZeroStats
  {
  }

  // ---------------------------------------------------------------------------
  // Per-survey progress
  // ---------------------------------------------------------------------------

  /** `survey.target || 1`: a missing or zero target counts as one. */
  function Target(s: StaffSurvey): (t: nat)
    ensures t > 0
    ensures s.target.Some? && s.target.value > 0 ==> t == s.target.value
  {
    if s.target.Some? && s.target.value > 0 then s.target.value else 1
  }

  /** `survey.responses || 0` */
  function Responses(s: StaffSurvey): nat {
    s.responses.GetOr(0)
  }

  /** The percentage printed beside the bar: `Math.round(responses / target * 100)`, not clamped. */
  function ProgressPercent(s: StaffSurvey): (p: nat)
    ensures 2 * Target(s) * p <= 200 * Responses(s) + Target(s) < 2 * Target(s) * (p + 1)
  {
    RoundPercent(Responses(s), Target(s))
  }

  /** The bar's width in percent: `Math.min(responses / target * 100, 100)`. */
  function BarWidth(s: StaffSurvey): (w: real)
    ensures 0.0 <= w <= 100.0
    ensures w == 100.0 <==> Responses(s) >= Target(s)
    ensures w < 100.0 ==> w * (Target(s) as real) == 100.0 * (Responses(s) as real)
  {
    var ratio := (Responses(s) as real) / (Target(s) as real) * 100.0;
    if ratio < 100.0 then ratio else 100.0
  }

  /** Past its target the printed percentage goes over 100 while the bar stays full. */
  lemma OverTargetShowsFullBar(s: StaffSurvey)
    requires Responses(s) > Target(s)
    ensures ProgressPercent(s) >= 100 && BarWidth(s) == 100.0
  {
    var p := ProgressPercent(s);
    if p < 100 {
      MulMonotone(2 * Target(s), p + 1, 100);
      assert false;
    }
  }
}

=== FILE: survey_answer.dfy ===
/**
 * The survey-answering page: the answer map the inputs edit, the required
 * check and row batch of the submit handler, and the progress figure.
 */
module SurveyAnswer {
  import opened Common
  import App
  import SurveyCreate

  /** A question as the answering page fetches it; option ids are whatever the `options` rows carry. */
  datatype AnswerQuestion = AnswerQuestion(
    id: string,
    qtype: string,
    required: bool,
    options: seq<Value>,
    maxRating: Option<int>)

  /** The survey with its questions, in `order_index` order. */
  datatype LoadedSurvey = LoadedSurvey(id: string, questions: seq<AnswerQuestion>)

  /** The page's `answers` state, keyed by question id. */
  type Answers = map<string, Value>

  /** A profile as the page reads it from the authentication context. */
  datatype Profile = Profile(id: string)

  // ---------------------------------------------------------------------------
  // Editing answers
  // ---------------------------------------------------------------------------

  /** `handleAnswerChange(questionId, value)`: only that question's entry changes. */
  function SetAnswer(a: Answers, qid: string, v: Value): (r: Answers)
    ensures r.Keys == a.Keys + {qid}
    ensures r[qid] == v
    ensures forall k :: k in a && k != qid ==> r[k] == a[k]
  {
    a[qid := v]
  }

  /** `answers[questionId] || []` for a checkbox question. */
  function Selection(a: Answers, qid: string): seq<Value>
    requires qid in a && Truthy(a[qid]) ==> a[qid].Arr?
  {
    if qid in a && Truthy(a[qid]) then a[qid].items else []
  }

  /**
   * `handleCheckboxChange(questionId, optionId)`: an option already selected is
   * removed (every occurrence), any other option is appended. Only checkbox
   * inputs call it, so the stored value is an array whenever it is truthy.
   */
  function ToggleCheckbox(a: Answers, qid: string, opt: Value): (r: Answers)
    requires qid in a && Truthy(a[qid]) ==> a[qid].Arr?
    ensures r.Keys == a.Keys + {qid}
    ensures forall k :: k in a && k != qid ==> r[k] == a[k]
    ensures r[qid].Arr?
    ensures opt in Selection(a, qid) ==>
      && opt !in r[qid].items
      && forall x :: x != opt ==> (x in r[qid].items <==> x in Selection(a, qid))
    ensures opt in Selection(a, qid) ==>
      && IsSubseq(r[qid].items, Selection(a, qid))
      && forall x :: x in Selection(a, qid) && x != opt ==> multiset(r[qid].items)[x] == multiset(Selection(a, qid))[x]
    ensures opt !in Selection(a, qid) ==> r[qid].items == Selection(a, qid) + [opt]
  {
    var current := Selection(a, qid);
    var keep := (x: Value) => x != opt;
    if opt in current then
      FilterCounts(current, keep);
      a[qid := Arr(Filter(current, keep))]
    else a[qid := Arr(current + [opt])]
  }

  /** Toggling the same option twice leaves every option's membership as it was. */
  lemma ToggleTwiceRestoresMembership(a: Answers, qid: string, opt: Value, x: Value)
    requires qid in a && Truthy(a[qid]) ==> a[qid].Arr?
    ensures var twice := ToggleCheckbox(ToggleCheckbox(a, qid, opt), qid, opt);
      x in Selection(twice, qid) <==> x in Selection(a, qid)
  {
    var once := ToggleCheckbox(a, qid, opt);
    assert Selection(once, qid) == once[qid].items;
    var twice := ToggleCheckbox(once, qid, opt);
    assert Selection(twice, qid) == twice[qid].items;
  }

  // ---------------------------------------------------------------------------
  // Submitting
  // ---------------------------------------------------------------------------

  /** A required question whose stored answer is missing or falsy. */
  predicate Unanswered(q: AnswerQuestion, a: Answers) {
    q.required && !(q.id in a && Truthy(a[q.id]))
  }

  /** A row of the `survey_answers` batch. */
  datatype AnswerRow = AnswerRow(surveyId: string, questionId: string, userId: Option<string>, answer: Value)

  /** What `handleSubmit` does. */
  datatype SubmitOutcome =
    | NothingLoaded
    | RejectedRequired
    | Submitted(rows: seq<AnswerRow>, navigatesToMyResponses: bool)

  /** `answers[q.id] || null` */
  function StoredOrNull(a: Answers, qid: string): (v: Value)
    ensures Truthy(v) <==> qid in a && Truthy(a[qid])
    ensures Truthy(v) ==> v == a[qid]
    ensures !Truthy(v) ==> v == Null
  {
    if qid in a && Truthy(a[qid]) then a[qid] else Null
  }

  /** `profile?.id || null` */
  function ProfileUserId(profile: Option<Profile>): (r: Option<string>)
    ensures r.Some? <==> profile.Some? && profile.value.id != ""
    ensures r.Some? ==> r.value == profile.value.id
  {
    if profile.Some? && profile.value.id != "" then Some(profile.value.id) else None
  }

  /** The batch: one row per question, in question order. */
  function AnswerRows(s: LoadedSurvey, a: Answers, profile: Option<Profile>): (rows: seq<AnswerRow>)
    ensures |rows| == |s.questions|
    ensures forall k :: 0 <= k < |rows| ==>
      rows[k] == AnswerRow(s.id, s.questions[k].id, ProfileUserId(profile), StoredOrNull(a, s.questions[k].id))
  {
    seq(|s.questions|, k requires 0 <= k < |s.questions| =>
      AnswerRow(s.id, s.questions[k].id, ProfileUserId(profile), StoredOrNull(a, s.questions[k].id)))
  }

  /**
   * `handleSubmit`: nothing without a loaded survey; a blocking alert and no
   * insert while some required question is unanswered; otherwise the batch is
   * inserted and the page moves on only when the insert succeeds.
   */
  function HandleSubmit(survey: Option<LoadedSurvey>, a: Answers, profile: Option<Profile>, insertOk: bool)
    : (r: SubmitOutcome)
    ensures survey.None? <==> r == NothingLoaded
    ensures survey.Some? ==>
      (r == RejectedRequired <==>
         exists k :: 0 <= k < |survey.value.questions| && Unanswered(survey.value.questions[k], a))
    ensures r.Submitted? ==>
      r.rows == AnswerRows(survey.value, a, profile) && r.navigatesToMyResponses == insertOk
  {
    if survey.None? then NothingLoaded
    else
      var qs := survey.value.questions;
      var unanswered := Filter(qs, (q: AnswerQuestion) => Unanswered(q, a));
      if |unanswered| > 0 then
        assert unanswered[0] in qs;
        RejectedRequired
      else
        Submitted(AnswerRows(survey.value, a, profile), insertOk)
  }

  /** An empty checkbox selection is an array, and arrays are truthy: it satisfies the required check. */
  lemma EmptySelectionCountsAsAnswered(q: AnswerQuestion, a: Answers)
    requires q.id in a && a[q.id] == Arr([])
    ensures !Unanswered(q, a)
  {
  }

  /**
   * The page reads `profile` from the authentication context, which only
   * carries `{user, loading}`; the profile is therefore always undefined and
   * every submitted row has a null `user_id`.
   */
  function ContextProfile(auth: App.Auth): Option<Profile> {
    None
  }

  lemma SubmittedRowsHaveNoUser(auth: App.Auth, s: LoadedSurvey, a: Answers, insertOk: bool)
    ensures var r := HandleSubmit(Some(s), a, ContextProfile(auth), insertOk);
      r.Submitted? ==> forall k :: 0 <= k < |r.rows| ==> r.rows[k].userId == None
  {
  }

  // ---------------------------------------------------------------------------
  // Progress
  // ---------------------------------------------------------------------------

  /** A JavaScript number as `Math.round` can return it here. */
  datatype JsNumber = Finite(n: nat) | NaN | Infinity

  /**
   * `getProgress()`: 0 without a survey, otherwise the rounded percentage of
   * answer keys over questions; with no questions that is `0/0` (NaN) or, with
   * stray keys, `k/0` (Infinity).
   */
  function GetProgress(survey: Option<LoadedSurvey>, a: Answers): (r: JsNumber)
    ensures survey.None? ==> r == Finite(0)
    ensures survey.Some? && |survey.value.questions| > 0 ==>
      r == Finite(RoundPercent(|a.Keys|, |survey.value.questions|))
    ensures survey.Some? && |survey.value.questions| == 0 ==> (r == NaN <==> |a| == 0)
    ensures survey.Some? && |survey.value.questions| == 0 && |a| > 0 ==> r == Infinity
  {
    if survey.None? then Finite(0)
    else
      var answered := |a.Keys|;
      var total := |survey.value.questions|;
      if total > 0 then Finite(RoundPercent(answered, total))
      else if answered == 0 then NaN
      else Infinity
  }

  /** The ids of the questions. */
  function QuestionIds(qs: seq<AnswerQuestion>): (ids: set<string>)
    ensures forall k :: 0 <= k < |qs| ==> qs[k].id in ids
    ensures forall id :: id in ids ==> exists k :: 0 <= k < |qs| && qs[k].id == id
  {
    set k | 0 <= k < |qs| :: qs[k].id
  }

  lemma {:induction false} QuestionIdsAtMostQuestions(qs: seq<AnswerQuestion>)
    ensures |QuestionIds(qs)| <= |qs|
    decreases |qs|
  {
    if |qs| > 0 {
      var last := qs[|qs| - 1];
      var init := qs[..|qs| - 1];
      QuestionIdsAtMostQuestions(init);
      assert QuestionIds(qs) == QuestionIds(init) + {last.id} by {
        forall id | id in QuestionIds(qs) ensures id in QuestionIds(init) + {last.id} {
          var k :| 0 <= k < |qs| && qs[k].id == id;
          if k < |qs| - 1 { assert init[k] == qs[k]; }
        }
        forall id | id in QuestionIds(init) ensures id in QuestionIds(qs) {
          var k :| 0 <= k < |init| && init[k].id == id;
          assert qs[k] == init[k];
        }
      }
    }
  }

  /** The inputs only write question ids, so progress stays within 0..100. */
  lemma ProgressWithinBounds(s: LoadedSurvey, a: Answers)
    requires |s.questions| > 0
    requires a.Keys <= QuestionIds(s.questions)
    ensures GetProgress(Some(s), a).Finite?
    ensures GetProgress(Some(s), a).n <= 100
  {
    QuestionIdsAtMostQuestions(s.questions);
    assert |a.Keys| <= |QuestionIds(s.questions)| by {
      SubsetCardinality(a.Keys, QuestionIds(s.questions));
    }
    RoundPercentAtMost100(|a.Keys|, |s.questions|);
  }

  /**
   * Answering question `k` with a truthy value clears its required check and
   * leaves every other question's check as it was; the answer map keeps only
   * question ids as keys, so the progress stays in 0..100, and it never drops.
   */
  lemma SetAnswerAnswersQuestion(s: LoadedSurvey, a: Answers, k: nat, v: Value)
    requires k < |s.questions| && Truthy(v)
    requires a.Keys <= QuestionIds(s.questions)
    ensures var r := SetAnswer(a, s.questions[k].id, v);
      && !Unanswered(s.questions[k], r)
      && (forall j :: 0 <= j < |s.questions| && s.questions[j].id != s.questions[k].id ==>
            (Unanswered(s.questions[j], r) <==> Unanswered(s.questions[j], a)))
      && r.Keys <= QuestionIds(s.questions)
      && GetProgress(Some(s), a).n <= GetProgress(Some(s), r).n <= 100
  {
    var r := SetAnswer(a, s.questions[k].id, v);
    ProgressWithinBounds(s, a);
    ProgressWithinBounds(s, r);
    assert a.Keys <= r.Keys;
    SubsetCardinality(a.Keys, r.Keys);
    RoundPercentMonotone(|a.Keys|, |r.Keys|, |s.questions|);
  }

  lemma SubsetCardinality(small: set<string>, big: set<string>)
    requires small <= big
    ensures |small| <= |big|
  {
    assert big == small + (big - small);
  }

  // ---------------------------------------------------------------------------
  // The inputs the page renders
  // ---------------------------------------------------------------------------

  /** The input a question type gets: star buttons, radio buttons, checkboxes or a text box. */
  datatype Widget = Stars | Radio | Checkboxes | TextBox

  /**
   * The inputs as the page renders them: rating scale, multiple choice,
   * checkbox, short and long text. A `dropdown` question, which the builder
   * offers, gets no input at all.
   */
  function WidgetAsWritten(qtype: string): Option<Widget> {
    if qtype == "rating_scale" then Some(Stars)
    else if qtype == "multiple_choice" then Some(Radio)
    else if qtype == "checkbox" then Some(Checkboxes)
    else if qtype == "text_input" || qtype == "textarea" then Some(TextBox)
    else None
  }

  /** The inputs with `dropdown` rendered as a single choice among its options. */
  function WidgetFor(qtype: string): Option<Widget> {
    if qtype == "dropdown" then Some(Radio) else WidgetAsWritten(qtype)
  }

  /** The question types the builder can save. */
  predicate IsBuilderType(qtype: string) {
    qtype in {"multiple_choice", "checkbox", "rating_scale", "text_input", "textarea", "dropdown"}
  }

  /**
   * The builder's option editor and this page's option inputs agree on which
   * types carry options once `dropdown` is rendered; as written, `dropdown` is
   * the one type whose options are edited in the builder but never offered here.
   */
  lemma OptionInputsMatchOptionEditor(t: SurveyCreate.QuestionType)
    ensures IsBuilderType(SurveyCreate.TypeName(t))
    ensures WidgetFor(SurveyCreate.TypeName(t)) in {Some(Radio), Some(Checkboxes)} <==> SurveyCreate.NeedsOptions(t)
    ensures WidgetAsWritten(SurveyCreate.TypeName(t)) in {Some(Radio), Some(Checkboxes)}
      <==> SurveyCreate.NeedsOptions(t) && t != SurveyCreate.Dropdown
    ensures WidgetAsWritten(SurveyCreate.TypeName(t)).None? <==> t == SurveyCreate.Dropdown
  {
  }

  /**
   * The number of stars shown: `q.settings?.max_rating || 5`. A negative
   * count is `None`: `Array(n)` throws a RangeError there and the star row
   * cannot render.
   */
  function StarCount(q: AnswerQuestion): (n: Option<nat>)
    ensures n.None? <==> q.maxRating.Some? && q.maxRating.value < 0
    ensures n.Some? ==> n.value >= 1
    ensures q.maxRating.None? || q.maxRating.value == 0 ==> n == Some(5)
    ensures q.maxRating.Some? && q.maxRating.value > 0 ==> n == Some(q.maxRating.value)
  {
    if q.maxRating.None? || q.maxRating.value == 0 then Some(5)
    else if q.maxRating.value < 0 then None
    else Some(q.maxRating.value)
  }

  /** One user interaction with the input of the question at position `q`. */
  datatype UiAction =
    | ClickStar(q: nat, star: nat)
    | PickOption(q: nat, opt: Value)
    | ToggleOption(q: nat, opt: Value)
    | TypeText(q: nat, text: string)

  /** The effect of one interaction; an interaction with an input that is not rendered does nothing. */
  function Perform(a: Answers, qs: seq<AnswerQuestion>, act: UiAction, widgets: string -> Option<Widget>)
    : (r: Answers)
    ensures r.Keys <= a.Keys + QuestionIds(qs)
    ensures act.q < |qs| && widgets(qs[act.q].qtype).None? ==> r == a
    ensures forall k :: k in a && (act.q >= |qs| || k != qs[act.q].id) ==> k in r && r[k] == a[k]
  {
    if act.q >= |qs| then a
    else
      var q := qs[act.q];
      match act
      case ClickStar(_, star) =>
        if widgets(q.qtype) == Some(Stars) && StarCount(q).Some? && 1 <= star <= StarCount(q).value then SetAnswer(a, q.id, Num(star)) else a
      case PickOption(_, opt) =>
        if widgets(q.qtype) == Some(Radio) && opt in q.options then SetAnswer(a, q.id, opt) else a
      case ToggleOption(_, opt) =>
        // only this question's checkboxes write its key, so a truthy value is an array
        if widgets(q.qtype) == Some(Checkboxes) && opt in q.options
           && (q.id in a && Truthy(a[q.id]) ==> a[q.id].Arr?)
        then ToggleCheckbox(a, q.id, opt) else a
      case TypeText(_, text) =>
        if widgets(q.qtype) == Some(TextBox) then SetAnswer(a, q.id, Str(text)) else a
  }

  /** A sequence of interactions, in order. */
  function PerformAll(a: Answers, qs: seq<AnswerQuestion>, acts: seq<UiAction>, widgets: string -> Option<Widget>)
    : Answers
    decreases |acts|
  {
    if |acts| == 0 then a
    else Perform(PerformAll(a, qs, acts[..|acts| - 1], widgets), qs, acts[|acts| - 1], widgets)
  }

  /** Question ids are unique within a survey. */
  ghost predicate DistinctIds(qs: seq<AnswerQuestion>) {
    forall i, j :: 0 <= i < j < |qs| ==> qs[i].id != qs[j].id
  }

  /** With the inputs as written, nothing the user does ever stores an answer for a dropdown question. */
  lemma {:induction false} DropdownNeverAnswered(qs: seq<AnswerQuestion>, d: nat, acts: seq<UiAction>)
    requires DistinctIds(qs)
    requires d < |qs| && qs[d].qtype == "dropdown"
    ensures qs[d].id !in PerformAll(map[], qs, acts, WidgetAsWritten)
    decreases |acts|
  {
    if |acts| > 0 {
      var before := PerformAll(map[], qs, acts[..|acts| - 1], WidgetAsWritten);
      DropdownNeverAnswered(qs, d, acts[..|acts| - 1]);
      var act := acts[|acts| - 1];
      if act.q < |qs| && act.q != d {
        assert qs[act.q].id != qs[d].id;
      }
    }
  }

  /** So a survey with a required dropdown question can never be submitted from the page. */
  lemma RequiredDropdownBlocksSubmit(
    s: LoadedSurvey, d: nat, acts: seq<UiAction>, profile: Option<Profile>, insertOk: bool)
    requires DistinctIds(s.questions)
    requires d < |s.questions| && s.questions[d].qtype == "dropdown" && s.questions[d].required
    ensures HandleSubmit(Some(s), PerformAll(map[], s.questions, acts, WidgetAsWritten), profile, insertOk)
      == RejectedRequired
  {
    DropdownNeverAnswered(s.questions, d, acts);
    assert Unanswered(s.questions[d], PerformAll(map[], s.questions, acts, WidgetAsWritten));
  }

  /** A question the inputs can answer with a truthy value. */
  ghost predicate Answerable(q: AnswerQuestion) {
    && IsBuilderType(q.qtype)
    && (WidgetFor(q.qtype) == Some(Radio) || WidgetFor(q.qtype) == Some(Checkboxes) ==>
          exists o :: o in q.options && Truthy(o))
  }

  /** One interaction that answers question `k` with a truthy value. */
  ghost function AnsweringAction(qs: seq<AnswerQuestion>, k: nat): (act: UiAction)
    requires k < |qs| && Answerable(qs[k])
    ensures act.q == k
  {
    var q := qs[k];
    match WidgetFor(q.qtype).value
    case Stars => if StarCount(q).Some? then ClickStar(k, 1) else TypeText(k, "")
    case Radio => var o :| o in q.options && Truthy(o); PickOption(k, o)
    case Checkboxes => var o :| o in q.options && Truthy(o); ToggleOption(k, o)
    case TextBox => TypeText(k, "x")
  }

  /**
   * With `dropdown` rendered, a user can answer every question of a survey
   * whose option rows carry a truthy id (each choice question having at
   * least one such row, each rating at least one star), so the submit
   * passes the required check.
   */
  lemma EveryRequiredQuestionAnswerable(s: LoadedSurvey, profile: Option<Profile>, insertOk: bool)
    requires DistinctIds(s.questions)
    requires forall k :: 0 <= k < |s.questions| ==> Answerable(s.questions[k])
    requires forall k :: 0 <= k < |s.questions| ==> StarCount(s.questions[k]).Some?
    ensures exists acts: seq<UiAction> ::
      HandleSubmit(Some(s), PerformAll(map[], s.questions, acts, WidgetFor), profile, insertOk).Submitted?
  {
    var qs := s.questions;
    var acts := seq(|qs|, k requires 0 <= k < |qs| => AnsweringAction(qs, k));
    AnsweringActionsAnswer(qs, acts, |qs|);
    var a := PerformAll(map[], qs, acts, WidgetFor);
    assert acts[..|qs|] == acts;
    assert forall k :: 0 <= k < |qs| ==> !Unanswered(qs[k], a);
    var r := HandleSubmit(Some(s), a, profile, insertOk);
    assert r != RejectedRequired && r != NothingLoaded;
    assert r.Submitted?;
  }

  /** After the first `n` answering interactions, the first `n` questions hold truthy answers. */
  lemma {:induction false} AnsweringActionsAnswer(qs: seq<AnswerQuestion>, acts: seq<UiAction>, n: nat)
    requires DistinctIds(qs)
    requires forall k :: 0 <= k < |qs| ==> Answerable(qs[k]) && StarCount(qs[k]).Some?
    requires |acts| == |qs| && n <= |qs|
    requires forall k :: 0 <= k < |qs| ==> acts[k] == AnsweringAction(qs, k)
    ensures var a := PerformAll(map[], qs, acts[..n], WidgetFor);
      forall k :: 0 <= k < n ==> qs[k].id in a && Truthy(a[qs[k].id])
    decreases n
  {
    if n > 0 {
      AnsweringActionsAnswer(qs, acts, n - 1);
      assert acts[..n][..n - 1] == acts[..n - 1];
      var before := PerformAll(map[], qs, acts[..n - 1], WidgetFor);
      var after := PerformAll(map[], qs, acts[..n], WidgetFor);
      assert after == Perform(before, qs, acts[n - 1], WidgetFor);
      var q := qs[n - 1];
      assert q.id !in before by {
        PerformAllKeys(qs, acts[..n - 1], n - 1);
      }
      AnsweringActionAnswers(before, qs, n - 1);
      forall k | 0 <= k < n - 1 ensures qs[k].id in after && Truthy(after[qs[k].id]) {
        assert qs[k].id != q.id;
      }
    }
  }

  /** The answering interaction for a question not yet answered stores a truthy answer for it. */
  lemma AnsweringActionAnswers(a: Answers, qs: seq<AnswerQuestion>, k: nat)
    requires k < |qs| && Answerable(qs[k]) && StarCount(qs[k]).Some?
    requires qs[k].id !in a
    ensures var r := Perform(a, qs, AnsweringAction(qs, k), WidgetFor);
      qs[k].id in r && Truthy(r[qs[k].id])
  {
  }

  /** The first `n` answering interactions only write the ids of the first `n` questions. */
  lemma {:induction false} PerformAllKeys(qs: seq<AnswerQuestion>, acts: seq<UiAction>, n: nat)
    requires |acts| == n <= |qs|
    requires forall k :: 0 <= k < n ==> acts[k].q == k
    ensures forall id :: id in PerformAll(map[], qs, acts, WidgetFor) ==>
      exists k :: 0 <= k < n && qs[k].id == id
    decreases n
  {
    if n > 0 {
      PerformAllKeys(qs, acts[..n - 1], n - 1);
    }
  }
}

=== FILE: survey_create.dfy ===
/**
 * The question builder of the survey-creation page: an in-memory list of
 * question drafts edited through a form, and the save step that turns the
 * drafts into rows for the `surveys` and `questions` tables.
 *
 * Every handler is a pure function from the page state to the next page
 * state, mirroring the spread-and-replace style of the page's `setState` calls.
 */
module SurveyCreate {
  import opened Common

  datatype QuestionType = MultipleChoice | Checkbox | RatingScale | TextInput | Textarea | Dropdown

  datatype RatingSettings = RatingSettings(minRating: int, maxRating: int)

  /** The question form (`newQuestion`): everything a draft holds except its id and position. */
  datatype QuestionForm = QuestionForm(
    text: string,
    qtype: QuestionType,
    required: bool,
    options: seq<string>,
    settings: RatingSettings)

  /** A draft in the builder list: the form's fields plus `id` and `order_index`. */
  datatype Question = Question(id: int, orderIndex: int, form: QuestionForm)

  /** The builder part of the page state. */
  datatype Builder = Builder(
    questions: seq<Question>,
    form: QuestionForm,
    editing: Option<Question>,
    showForm: bool)

  /** The form the page starts with and returns to after every add or update. */
  const DefaultForm := QuestionForm("", MultipleChoice, false, ["", ""], RatingSettings(1, 5))

  // ---------------------------------------------------------------------------
  // Blank text: `!text.trim()`
  // ---------------------------------------------------------------------------

  /** The characters `String.prototype.trim` removes: ECMAScript WhiteSpace and LineTerminator. */
  predicate IsTrimmable(c: char) {
    var n := c as int;
    || n == 0x09 || n == 0x0A || n == 0x0B || n == 0x0C || n == 0x0D || n == 0x20
    || n == 0xA0 || n == 0x1680 || 0x2000 <= n <= 0x200A
    || n == 0x2028 || n == 0x2029 || n == 0x202F || n == 0x205F || n == 0x3000 || n == 0xFEFF
  }

  function TrimStart(s: string): string
    decreases |s|
  {
    if |s| > 0 && IsTrimmable(s[0]) then TrimStart(s[1..]) else s
  }

  function TrimEnd(s: string): string
    decreases |s|
  {
    if |s| > 0 && IsTrimmable(s[|s| - 1]) then TrimEnd(s[..|s| - 1]) else s
  }

  /** `s.trim()` */
  function Trim(s: string): string {
    TrimEnd(TrimStart(s))
  }

  /** Every character of `s` is white space. */
  ghost predicate IsBlank(s: string) {
    forall i :: 0 <= i < |s| ==> IsTrimmable(s[i])
  }

  /** `s.trim()` is empty exactly when `s` consists of white space only. */
  lemma {:induction false} TrimEmptyIffBlank(s: string)
    ensures Trim(s) == "" <==> IsBlank(s)
    decreases |s|
  {
    if |s| > 0 && IsTrimmable(s[0]) {
      TrimEmptyIffBlank(s[1..]);
      assert IsBlank(s) <==> IsBlank(s[1..]) by {
        if IsBlank(s[1..]) {
          forall i | 0 <= i < |s| ensures IsTrimmable(s[i]) {
            if i > 0 { assert s[i] == s[1..][i - 1]; }
          }
        }
      }
    } else if |s| > 0 {
      assert TrimStart(s) == s;
      assert !IsBlank(s);
      assert TrimEnd(s) != "" by { TrimEndKeepsFirst(s); }
    }
  }

  /** Trimming the end of a string that does not start with white space leaves its first character. */
  lemma {:induction false} TrimEndKeepsFirst(s: string)
    requires |s| > 0 && !IsTrimmable(s[0])
    ensures |TrimEnd(s)| > 0 && TrimEnd(s)[0] == s[0]
    decreases |s|
  {
    if IsTrimmable(s[|s| - 1]) {
      TrimEndKeepsFirst(s[..|s| - 1]);
    }
  }

  // ---------------------------------------------------------------------------
  // Question handlers
  // ---------------------------------------------------------------------------

  /**
   * `handleAddQuestion`: with non-blank text the form becomes a new draft with
   * id `now` (the page uses `Date.now()`) and `order_index` equal to the
   * current length of the list.
   */
  function AddQuestion(b: Builder, now: int): (r: Builder)
    ensures IsBlank(b.form.text) ==> r == b
    ensures !IsBlank(b.form.text) ==>
      && |r.questions| == |b.questions| + 1
      && r.questions[..|b.questions|] == b.questions
      && r.questions[|b.questions|] == Question(now, |b.questions|, b.form)
      && r.form == DefaultForm && r.editing == None && !r.showForm
  {
    TrimEmptyIffBlank(b.form.text);
    if Trim(b.form.text) == "" then b
    else ResetQuestionForm(b.(questions := b.questions + [Question(now, |b.questions|, b.form)]))
  }

  /**
   * `handleUpdateQuestion`: with non-blank text every draft whose id is the
   * edited draft's id takes the form's fields and keeps its id and position.
   * The page only offers this handler while a draft is being edited.
   */
  function UpdateQuestion(b: Builder): (r: Builder)
    requires b.editing.Some?
    ensures IsBlank(b.form.text) ==> r == b
    ensures !IsBlank(b.form.text) ==>
      && |r.questions| == |b.questions|
      && r.form == DefaultForm && r.editing == None && !r.showForm
      && forall k :: 0 <= k < |b.questions| ==>
           && r.questions[k].id == b.questions[k].id
           && r.questions[k].orderIndex == b.questions[k].orderIndex
           && (b.questions[k].id == b.editing.value.id ==> r.questions[k].form == b.form)
           && (b.questions[k].id != b.editing.value.id ==> r.questions[k] == b.questions[k])
  {
    TrimEmptyIffBlank(b.form.text);
    if Trim(b.form.text) == "" then b
    else
      var target := b.editing.value.id;
      var qs := seq(|b.questions|, k requires 0 <= k < |b.questions| =>
        var q := b.questions[k];
        if q.id == target then Question(q.id, q.orderIndex, b.form) else q);
      ResetQuestionForm(b.(questions := qs))
  }

  /** The filter of `handleDeleteQuestion`: a draft stays when its id differs. */
  function KeepsOtherIds(id: int): Question -> bool {
    (q: Question) => q.id != id
  }

  /** `handleDeleteQuestion`: keeps the drafts with a different id, in order, without renumbering. */
  function DeleteQuestion(qs: seq<Question>, id: int): (r: seq<Question>)
    ensures IsSubseq(r, qs)
    ensures forall k :: 0 <= k < |r| ==> r[k].id != id
    ensures forall k :: 0 <= k < |qs| && qs[k].id != id ==> qs[k] in r
    ensures forall x :: x in qs ==> multiset(r)[x] == if x.id != id then multiset(qs)[x] else 0
    ensures (forall k :: 0 <= k < |qs| ==> qs[k].id != id) ==> r == qs
  {
    var keep := KeepsOtherIds(id);
    FilterCounts(qs, keep);
    Filter(qs, keep)
  }

  /** `handleEditQuestion`: loads a draft into the form and opens it. */
  function EditQuestion(b: Builder, q: Question): (r: Builder)
    ensures r.questions == b.questions
    ensures r.editing == Some(q) && r.showForm
    ensures r.form == q.form
  {
    b.(editing := Some(q), form := q.form, showForm := true)
  }

  /** `resetQuestionForm`: the empty form, nothing being edited, the form closed. */
  function ResetQuestionForm(b: Builder): (r: Builder)
    ensures r.questions == b.questions
    ensures r.form == DefaultForm && r.editing == None && !r.showForm
  {
    b.(form := DefaultForm, editing := None, showForm := false)
  }

  // ---------------------------------------------------------------------------
  // Reordering
  // ---------------------------------------------------------------------------

  /** Every draft's `order_index` is its position in the list. */
  ghost predicate Dense(qs: seq<Question>) {
    forall k :: 0 <= k < |qs| ==> qs[k].orderIndex == k
  }

  /** The position whose element lands at `k` when positions `i` and `j` are exchanged. */
  function Swapped(k: int, i: int, j: int): int {
    if k == i then j else if k == j then i else k
  }

  /** What a draft is apart from its position. */
  function Content(q: Question): (int, QuestionForm) {
    (q.id, q.form)
  }

  /**
   * `moveQuestion(index, direction)`: when the target position is inside the
   * list, the two drafts are exchanged and then every `order_index` is reset to
   * the draft's position; otherwise nothing changes. The page calls it with the
   * index of a rendered draft.
   */
  function MoveQuestion(qs: seq<Question>, index: int, direction: int): (r: seq<Question>)
    requires 0 <= index < |qs|
    ensures !(0 <= index + direction < |qs|) ==> r == qs
    ensures 0 <= index + direction < |qs| ==>
      && |r| == |qs|
      && Dense(r)
      && forall k :: 0 <= k < |r| ==> Content(r[k]) == Content(qs[Swapped(k, index, index + direction)])
  {
    var j := index + direction;
    if 0 <= j < |qs| then
      seq(|qs|, k requires 0 <= k < |qs| => qs[Swapped(k, index, j)].(orderIndex := k))
    else
      qs
  }

  /** The drafts of `qs`, position ignored. */
  function Contents(qs: seq<Question>): (r: seq<(int, QuestionForm)>)
    ensures |r| == |qs|
    ensures forall k :: 0 <= k < |qs| ==> r[k] == Content(qs[k])
  {
    seq(|qs|, k requires 0 <= k < |qs| => Content(qs[k]))
  }

  /** A move never adds, drops or duplicates a draft. */
  lemma MovePreservesDrafts(qs: seq<Question>, index: int, direction: int)
    requires 0 <= index < |qs|
    ensures multiset(Contents(MoveQuestion(qs, index, direction))) == multiset(Contents(qs))
  {
    var j := index + direction;
    if 0 <= j < |qs| {
      var before := Contents(qs);
      var after := Contents(MoveQuestion(qs, index, direction));
      assert after == before[index := before[j]][j := before[index]];
    }
  }

  /**
   * Moving the draft at `i` up and then the draft now at `i - 1` down gives the
   * original drafts back in the original order, each numbered by its position.
   */
  lemma MoveUpThenDownRestores(qs: seq<Question>, i: int)
    requires 0 < i < |qs|
    ensures var back := MoveQuestion(MoveQuestion(qs, i, -1), i - 1, 1);
      && |back| == |qs|
      && Dense(back)
      && Contents(back) == Contents(qs)
  {
  }

  /** On a list already numbered by position, the round trip is the identity. */
  lemma MoveUpThenDownIsIdentity(qs: seq<Question>, i: int)
    requires 0 < i < |qs|
    requires Dense(qs)
    ensures MoveQuestion(MoveQuestion(qs, i, -1), i - 1, 1) == qs
  {
  }

  /**
   * Delete does not compact positions and add numbers by length, so a delete
   * followed by an add can give two drafts the same `order_index`.
   */
  lemma DeleteThenAddCanRepeatPosition(f: QuestionForm)
    requires !IsBlank(f.text)
    ensures var b := Builder([Question(1, 0, f), Question(2, 1, f)], f, None, true);
      var r := AddQuestion(b.(questions := DeleteQuestion(b.questions, 1)), 3);
      && |r.questions| == 2
      && r.questions[0].orderIndex == 1
      && r.questions[1].orderIndex == 1
  {
  }

  /** Adding a draft under an id no draft has, then deleting that id, gives the list back. */
  lemma AddThenDeleteRestores(b: Builder, now: int)
    requires !IsBlank(b.form.text)
    requires forall k :: 0 <= k < |b.questions| ==> b.questions[k].id != now
    ensures DeleteQuestion(AddQuestion(b, now).questions, now) == b.questions
  {
    var added := Question(now, |b.questions|, b.form);
    var keep := KeepsOtherIds(now);
    assert AddQuestion(b, now).questions == b.questions + [added];
    FilterAppend(b.questions, [added], keep);
    assert Filter([added], keep) == [];
    assert Filter(b.questions, keep) == b.questions;
  }

  // ---------------------------------------------------------------------------
  // Options of a choice question
  // ---------------------------------------------------------------------------

  /** The `question_type` string stored for each type (the `value` column of `questionTypes`). */
  function TypeName(t: QuestionType): string {
    match t
    case MultipleChoice => "multiple_choice"
    case Checkbox => "checkbox"
    case RatingScale => "rating_scale"
    case TextInput => "text_input"
    case Textarea => "textarea"
    case Dropdown => "dropdown"
  }

  /** `questionTypes.find(t => t.value === question_type)`: the type a stored string names, if any. */
  function ParseType(s: string): (r: Option<QuestionType>)
    ensures r.Some? ==> TypeName(r.value) == s
  {
    if s == "multiple_choice" then Some(MultipleChoice)
    else if s == "checkbox" then Some(Checkbox)
    else if s == "rating_scale" then Some(RatingScale)
    else if s == "text_input" then Some(TextInput)
    else if s == "textarea" then Some(Textarea)
    else if s == "dropdown" then Some(Dropdown)
    else None
  }

  /** Every stored type string is found again, and only stored strings are found. */
  lemma ParseTypeInvertsTypeName(t: QuestionType, s: string)
    ensures ParseType(TypeName(t)) == Some(t)
    ensures ParseType(s).Some? <==> exists u :: TypeName(u) == s
  {
    if exists u :: TypeName(u) == s {
      var u :| TypeName(u) == s;
      assert ParseType(TypeName(u)) == Some(u);
    }
  }

  /** `needsOptions`: the type chosen in the form is one of the three option-carrying types. */
  predicate NeedsOptions(t: QuestionType)
    ensures NeedsOptions(t) <==> TypeName(t) in ["multiple_choice", "checkbox", "dropdown"]
  {
    t == MultipleChoice || t == Checkbox || t == Dropdown
  }

  /** A row of the option editor: the option's text and whether its remove button is enabled. */
  datatype OptionRow = OptionRow(text: string, removeEnabled: bool)

  /**
   * The option editor of the question form: shown only when the chosen type
   * needs options, one row per option, and every row's remove button disabled
   * while two or fewer options remain.
   */
  function OptionEditor(f: QuestionForm): (rows: Option<seq<OptionRow>>)
    ensures rows.Some? <==> NeedsOptions(f.qtype)
    ensures rows.Some? ==> |rows.value| == |f.options|
    ensures rows.Some? ==> forall k :: 0 <= k < |f.options| ==>
      rows.value[k].text == f.options[k] && (rows.value[k].removeEnabled <==> |f.options| > 2)
  {
    if NeedsOptions(f.qtype) then
      Some(seq(|f.options|, k requires 0 <= k < |f.options| => OptionRow(f.options[k], |f.options| > 2)))
    else None
  }

  /** A row's remove button is enabled exactly when `removeOption` on that row would change the form. */
  lemma RemoveEnabledIffEffective(f: QuestionForm, k: int)
    requires NeedsOptions(f.qtype) && 0 <= k < |f.options|
    ensures OptionEditor(f).value[k].removeEnabled <==> RemoveOption(f, k) != f
  {
    if |f.options| > 2 {
      assert |RemoveOption(f, k).options| == |f.options| - 1;
    }
  }

  /** `addOption`: one more empty option at the end. */
  function AddOption(f: QuestionForm): (r: QuestionForm)
    ensures r.options == f.options + [""]
    ensures r == f.(options := r.options)
  {
    f.(options := f.options + [""])
  }

  /** `updateOption(i, value)`: the page calls it with the index of a rendered option. */
  function UpdateOption(f: QuestionForm, i: int, value: string): (r: QuestionForm)
    requires 0 <= i < |f.options|
    ensures |r.options| == |f.options| && r.options[i] == value
    ensures forall k :: 0 <= k < |f.options| && k != i ==> r.options[k] == f.options[k]
    ensures r == f.(options := r.options)
  {
    f.(options := f.options[i := value])
  }

  /** `removeOption(i)`: drops the option at index `i`, but only while more than two remain. */
  function RemoveOption(f: QuestionForm, i: int): (r: QuestionForm)
    ensures |f.options| <= 2 ==> r == f
    ensures |f.options| > 2 && 0 <= i < |f.options| ==> r.options == f.options[..i] + f.options[i + 1..]
    ensures |f.options| > 2 && !(0 <= i < |f.options|) ==> r == f
    ensures |f.options| >= 2 ==> |r.options| >= 2
    ensures r == f.(options := r.options)
  {
    if |f.options| > 2 then
      f.(options := if 0 <= i < |f.options| then f.options[..i] + f.options[i + 1..] else f.options)
    else f
  }

  /** An edit of the option list through the add and remove buttons. */
  datatype OptionEdit = AddEmpty | RemoveAt(index: int)

  function ApplyOptionEdits(f: QuestionForm, edits: seq<OptionEdit>): QuestionForm
    decreases |edits|
  {
    if |edits| == 0 then f
    else
      var next := match edits[0]
        case AddEmpty => AddOption(f)
        case RemoveAt(i) => RemoveOption(f, i);
      ApplyOptionEdits(next, edits[1..])
  }

  /** Starting from a form with at least two options, no sequence of edits gets below two. */
  lemma {:induction false} OptionCountNeverBelowTwo(f: QuestionForm, edits: seq<OptionEdit>)
    requires |f.options| >= 2
    ensures |ApplyOptionEdits(f, edits).options| >= 2
    decreases |edits|
  {
    if |edits| > 0 {
      var next := match edits[0]
        case AddEmpty => AddOption(f)
        case RemoveAt(i) => RemoveOption(f, i);
      OptionCountNeverBelowTwo(next, edits[1..]);
    }
  }

  // ---------------------------------------------------------------------------
  // Saving
  // ---------------------------------------------------------------------------

  /** The survey fields of the details tab (`surveyData`, without its unused `status`). */
  datatype SurveyDetails = SurveyDetails(
    title: string,
    description: string,
    isAnonymous: bool,
    startDate: string,
    endDate: string)

  /** The row inserted into `surveys`. */
  datatype SurveyRow = SurveyRow(details: SurveyDetails, status: string, createdBy: Option<string>)

  /** A row inserted into `questions`. */
  datatype QuestionRow = QuestionRow(
    surveyId: string,
    text: string,
    qtype: QuestionType,
    required: bool,
    options: seq<string>,
    settings: RatingSettings,
    orderIndex: int)

  /** The answer of the data service to the survey insert: the new row's id, or an error. */
  datatype InsertReply = InsertFailed | Inserted(id: string)

  /** The calls `handleSaveSurvey` makes and whether it navigates to `/surveys`. */
  datatype SaveTrace = SaveTrace(
    surveyInsert: Option<SurveyRow>,
    questionInsert: Option<seq<QuestionRow>>,
    navigatesToList: bool)

  /** The rows written for the drafts, one per draft, in list order. */
  function QuestionRows(surveyId: string, qs: seq<Question>): (rows: seq<QuestionRow>)
    ensures |rows| == |qs|
    ensures forall k :: 0 <= k < |qs| ==>
      && rows[k].surveyId == surveyId
      && rows[k].orderIndex == qs[k].orderIndex
      && rows[k].text == qs[k].form.text
      && rows[k].qtype == qs[k].form.qtype
      && rows[k].required == qs[k].form.required
      && rows[k].options == qs[k].form.options
      && rows[k].settings == qs[k].form.settings
  {
    seq(|qs|, k requires 0 <= k < |qs| =>
      var f := qs[k].form;
      QuestionRow(surveyId, f.text, f.qtype, f.required, f.options, f.settings, qs[k].orderIndex))
  }

  /**
   * `handleSaveSurvey(status)`: nothing happens without a title or without
   * drafts; otherwise the survey row is inserted with exactly the status the
   * button passed, then, if that succeeded, one question row per draft, and
   * only when both inserts succeed does the page go to the survey list.
   */
  function SaveSurvey(
    details: SurveyDetails, qs: seq<Question>, status: string, userId: Option<string>,
    surveyReply: InsertReply, questionsOk: bool): (t: SaveTrace)
    ensures (details.title == "" || |qs| == 0) <==> t.surveyInsert.None?
    ensures t.surveyInsert.Some? ==>
      t.surveyInsert.value == SurveyRow(details, status, userId)
    ensures t.questionInsert.Some? <==> t.surveyInsert.Some? && surveyReply.Inserted?
    ensures t.questionInsert.Some? ==> t.questionInsert.value == QuestionRows(surveyReply.id, qs)
    ensures t.navigatesToList <==> t.questionInsert.Some? && questionsOk
  {
    if details.title == "" || |qs| == 0 then
      SaveTrace(None, None, false)
    else
      var row := SurveyRow(details, status, userId);
      match surveyReply
      case InsertFailed => SaveTrace(Some(row), None, false)
      case Inserted(id) => SaveTrace(Some(row), Some(QuestionRows(id, qs)), questionsOk)
  }

  /**
   * The two header buttons (`handleSaveSurvey('draft')` and
   * `handleSaveSurvey('active')`) run the same save: the same question rows
   * and the same navigation, and survey rows that differ only in status.
   */
  lemma DraftAndPublishDifferOnlyInStatus(
    details: SurveyDetails, qs: seq<Question>, userId: Option<string>,
    surveyReply: InsertReply, questionsOk: bool)
    ensures var d := SaveSurvey(details, qs, "draft", userId, surveyReply, questionsOk);
      var p := SaveSurvey(details, qs, "active", userId, surveyReply, questionsOk);
      && d.questionInsert == p.questionInsert
      && d.navigatesToList == p.navigatesToList
      && (d.surveyInsert.Some? <==> p.surveyInsert.Some?)
      && (d.surveyInsert.Some? ==>
            && d.surveyInsert.value.status == "draft"
            && p.surveyInsert.value == d.surveyInsert.value.(status := "active"))
  {
  }
}

=== FILE: surveys.dfy ===
/**
 * The survey list page: the owner restriction of its query, the search and
 * status filters, the per-survey status menu, and the local list updates
 * after a delete or a status change.
 */
module Surveys {
  import opened Common
  import App

  /** A survey row as the list fetches it; `title` and `description` may be null. */
  datatype SurveySummary = SurveySummary(
    id: string,
    title: Option<string>,
    description: Option<string>,
    status: string,
    ownerId: string)

  /** The page state that the handlers touch: the list and the open menu. */
  datatype ListState = ListState(surveys: seq<SurveySummary>, openMenu: Option<string>)

  // ---------------------------------------------------------------------------
  // Query
  // ---------------------------------------------------------------------------

  /** The list query: either not issued (no user yet) or issued, restricted to one owner or not. */
  datatype Query = NotIssued | AllSurveys | OwnedBy(userId: string)

  /** The query of the fetch effect, given the context's `user` and `isAdmin`. */
  function ListQuery(user: Option<App.AuthUser>, isAdmin: bool): (q: Query)
    ensures user.None? <==> q == NotIssued
    ensures user.Some? && !isAdmin ==> q == OwnedBy(user.value.id)
    ensures user.Some? && isAdmin ==> q == AllSurveys
  {
    if user.None? then NotIssued
    else if !isAdmin then OwnedBy(user.value.id)
    else AllSurveys
  }

  /** `isAdmin` read from the authentication context, which has no such field: always undefined, so falsy. */
  function ContextIsAdmin(auth: App.Auth): bool {
    false
  }

  /** Every signed-in user, admins included, only ever sees their own surveys. */
  lemma ListAlwaysRestrictedToOwner(auth: App.Auth)
    requires auth.user.Some?
    ensures ListQuery(auth.user, ContextIsAdmin(auth)) == OwnedBy(auth.user.value.id)
  {
  }

  // ---------------------------------------------------------------------------
  // Filters
  // ---------------------------------------------------------------------------

  /** `s.title?.toLowerCase().includes(term.toLowerCase())`: a missing title never matches. */
  predicate FieldMatches(field: Option<string>, term: string) {
    field.Some? && ContainsIgnoringCase(field.value, term)
  }

  /** The search part of `filteredSurveys`. */
  predicate SearchMatches(s: SurveySummary, term: string) {
    FieldMatches(s.title, term) || FieldMatches(s.description, term)
  }

  /** The status part of `filteredSurveys`: `'all'` or the same status. */
  predicate StatusMatches(s: SurveySummary, filter: string) {
    filter == "all" || s.status == filter
  }

  /** `filteredSurveys`: the surveys that match both the search and the status filter, in list order. */
  function FilteredSurveys(surveys: seq<SurveySummary>, term: string, filter: string): (r: seq<SurveySummary>)
    ensures IsSubseq(r, surveys)
    ensures forall k :: 0 <= k < |r| ==> SearchMatches(r[k], term) && StatusMatches(r[k], filter)
    ensures forall k ::
              0 <= k < |surveys| && SearchMatches(surveys[k], term) && StatusMatches(surveys[k], filter)
              ==> surveys[k] in r
    ensures forall x :: x in surveys ==>
              multiset(r)[x] == if SearchMatches(x, term) && StatusMatches(x, filter) then multiset(surveys)[x] else 0
  {
    var keep := (s: SurveySummary) => SearchMatches(s, term) && StatusMatches(s, filter);
    FilterCounts(surveys, keep);
    Filter(surveys, keep)
  }

  /** A survey with neither title nor description is hidden even by the empty search. */
  lemma UntitledSurveyNeverMatches(s: SurveySummary, term: string)
    requires s.title.None? && s.description.None?
    ensures !SearchMatches(s, term)
  {
  }

  /** Any survey with a title passes the empty search. */
  lemma EmptySearchMatchesTitled(s: SurveySummary)
    requires s.title.Some?
    ensures SearchMatches(s, "")
  {
  }

  /** The search is case-insensitive: "campus" finds "Campus Facilities Feedback" but not "CS101 Evaluation". */
  lemma CampusExample()
    ensures var campus := SurveySummary("1", Some("Campus Facilities Feedback"), None, "active", "u");
      var cs := SurveySummary("2", Some("CS101 Evaluation"), None, "active", "u");
      FilteredSurveys([campus, cs], "campus", "all") == [campus]
  {
    var campus := SurveySummary("1", Some("Campus Facilities Feedback"), None, "active", "u");
    var cs := SurveySummary("2", Some("CS101 Evaluation"), None, "active", "u");
    CampusTitleMatches();
    CourseTitleDoesNotMatch();
    assert [campus, cs][1..] == [cs];
    assert [cs][1..] == [];
  }

  lemma CampusTitleMatches()
    ensures ContainsIgnoringCase("Campus Facilities Feedback", "campus")
  {
    var u := Lower("Campus Facilities Feedback");
    var n := Lower("campus");
    assert n == "campus" by {
      assert forall i :: 0 <= i < 6 ==> n[i] == "campus"[i];
    }
    assert u[..6] == "campus" by {
      assert forall i :: 0 <= i < 6 ==> u[i] == "campus"[i];
    }
    assert OccursAt(u, n, 0);
  }

  lemma CourseTitleDoesNotMatch()
    ensures !ContainsIgnoringCase("CS101 Evaluation", "campus")
  {
    var u := Lower("CS101 Evaluation");
    var n := Lower("campus");
    assert n == "campus" by {
      assert forall i :: 0 <= i < 6 ==> n[i] == "campus"[i];
    }
    assert u == "cs101 evaluation" by {
      assert forall i :: 0 <= i < |u| ==> u[i] == "cs101 evaluation"[i];
    }
    forall i | 0 <= i && i + 6 <= |u| ensures !OccursAt(u, n, i) {
      if i == 0 {
        assert u[i..i + 6][1] == 's';
      } else {
        assert u[i..i + 6][0] == u[i] != 'c';
      }
    }
  }

  // ---------------------------------------------------------------------------
  // Status menu
  // ---------------------------------------------------------------------------

  /** An entry of a survey's menu. */
  datatype MenuEntry = SetStatus(caption: string, target: string) | DeleteEntry

  /** The menu of a survey: Publish for a draft, Close for an active survey, and Delete for all. */
  function StatusMenu(status: string): (m: seq<MenuEntry>)
    ensures DeleteEntry in m
    ensures forall e :: e in m && e.SetStatus? ==>
      (status == "draft" && e.target == "active") || (status == "active" && e.target == "closed")
    ensures status == "draft" ==> SetStatus("Publish", "active") in m
    ensures status == "active" ==> SetStatus("Close", "closed") in m
  {
    if status == "draft" then [SetStatus("Publish", "active"), DeleteEntry]
    else if status == "active" then [SetStatus("Close", "closed"), DeleteEntry]
    else [DeleteEntry]
  }

  /** The status after choosing the `choice`-th status entry of the menu, if there is one. */
  function ChooseStatus(status: string, choice: nat): string {
    var m := StatusMenu(status);
    if choice < |m| && m[choice].SetStatus? then m[choice].target else status
  }

  function ChooseAll(status: string, choices: seq<nat>): string
    decreases |choices|
  {
    if |choices| == 0 then status else ChooseAll(ChooseStatus(status, choices[0]), choices[1..])
  }

  /** Rank of a status along draft, active, closed; the menu never lowers it. */
  function Stage(status: string): nat {
    if status == "draft" then 0 else if status == "active" then 1 else 2
  }

  /** Through the menu a survey only moves forward: a closed survey is never reopened, an active one never returns to draft. */
  lemma {:induction false} MenuOnlyMovesForward(status: string, choices: seq<nat>)
    ensures Stage(ChooseAll(status, choices)) >= Stage(status)
    ensures status !in {"draft", "active"} ==> ChooseAll(status, choices) == status
    decreases |choices|
  {
    if |choices| > 0 {
      MenuOnlyMovesForward(ChooseStatus(status, choices[0]), choices[1..]);
    }
  }

  // ---------------------------------------------------------------------------
  // Local list updates
  // ---------------------------------------------------------------------------

  /** What `handleDelete` leaves behind: the list state, and the id of the delete call it sent, if any. */
  datatype DeleteOutcome = DeleteOutcome(state: ListState, deleteSent: Option<string>)

  /**
   * `handleDelete(id)`: a cancelled confirmation returns before any call; a
   * confirmed one sends the delete for that id. Cancelled or failed, the list
   * and menu stay; otherwise that id leaves the list and the menu closes.
   */
  function HandleDelete(st: ListState, id: string, confirmed: bool, deleteOk: bool): (r: DeleteOutcome)
    ensures r.deleteSent.Some? <==> confirmed
    ensures r.deleteSent.Some? ==> r.deleteSent.value == id
    ensures !confirmed || !deleteOk ==> r.state == st
    ensures confirmed && deleteOk ==>
      && r.state.openMenu == None
      && IsSubseq(r.state.surveys, st.surveys)
      && (forall k :: 0 <= k < |r.state.surveys| ==> r.state.surveys[k].id != id)
      && (forall k :: 0 <= k < |st.surveys| && st.surveys[k].id != id ==> st.surveys[k] in r.state.surveys)
      && (forall x :: x in st.surveys ==>
            multiset(r.state.surveys)[x] == if x.id != id then multiset(st.surveys)[x] else 0)
  {
    if !confirmed then DeleteOutcome(st, None)
    else if !deleteOk then DeleteOutcome(st, Some(id))
    else
      var keep := (s: SurveySummary) => s.id != id;
      FilterCounts(st.surveys, keep);
      DeleteOutcome(ListState(Filter(st.surveys, keep), None), Some(id))
  }

  /** Deleting an id no listed survey has keeps the list; only the menu closes. */
  lemma DeleteUnknownIdKeepsList(st: ListState, id: string, confirmed: bool, deleteOk: bool)
    requires forall k :: 0 <= k < |st.surveys| ==> st.surveys[k].id != id
    ensures HandleDelete(st, id, confirmed, deleteOk).state.surveys == st.surveys
    ensures confirmed && deleteOk ==> HandleDelete(st, id, confirmed, deleteOk).state == ListState(st.surveys, None)
  {
  }

  /** Deleting the same survey a second time changes nothing more. */
  lemma DeleteIsIdempotent(st: ListState, id: string)
    ensures var once := HandleDelete(st, id, true, true).state;
      HandleDelete(once, id, true, true).state == once
  {
  }

  /** `handleStatusChange(id, status)`: on success only the survey with that id changes, and only its status. */
  function HandleStatusChange(st: ListState, id: string, status: string, updateOk: bool): (r: ListState)
    ensures !updateOk ==> r == st
    ensures updateOk ==>
      && r.openMenu == None
      && |r.surveys| == |st.surveys|
      && forall k :: 0 <= k < |st.surveys| ==>
           r.surveys[k] == (if st.surveys[k].id == id then st.surveys[k].(status := status) else st.surveys[k])
  {
    if !updateOk then st
    else
      ListState(
        seq(|st.surveys|, k requires 0 <= k < |st.surveys| =>
          if st.surveys[k].id == id then st.surveys[k].(status := status) else st.surveys[k]),
        None)
  }

  /** A status change keeps the list's ids, in order. */
  lemma StatusChangeKeepsIds(st: ListState, id: string, status: string, updateOk: bool)
    ensures var r := HandleStatusChange(st, id, status, updateOk);
      |r.surveys| == |st.surveys| && forall k :: 0 <= k < |st.surveys| ==> r.surveys[k].id == st.surveys[k].id
  {
  }
}

=== FILE: user_management.dfy ===
/**
 * The user-management page: its search and role filter, the payload an edit
 * sends, and the local effects of saving, editing, deleting and resetting
 * the form on the page's list of users.
 */
module UserManagement {
  import opened Common

  /**
   * A row of the page's `users` list. A fetched row has no password; one
   * merged after an edit carries the password the edit sent, if any.
   */
  datatype UserRow = UserRow(
    id: string,
    fullName: string,
    email: string,
    role: string,
    departmentId: Option<string>,
    isActive: bool,
    password: Option<string>)

  /** The modal's `formData`; an empty `departmentId` means "no department". */
  datatype FormData = FormData(
    fullName: string,
    email: string,
    password: string,
    role: string,
    departmentId: string,
    isActive: bool)

  /** The form `resetForm` restores. */
  const DefaultForm := FormData("", "", "", "student", "", true)

  /** The page state the handlers touch. */
  datatype PageState = PageState(users: seq<UserRow>, form: FormData, editing: Option<UserRow>, showModal: bool)

  // ---------------------------------------------------------------------------
  // Filter
  // ---------------------------------------------------------------------------

  /** The search part of `filteredUsers`: the term in the full name or the e-mail, ignoring case. */
  predicate UserSearchMatches(u: UserRow, term: string) {
    ContainsIgnoringCase(u.fullName, term) || ContainsIgnoringCase(u.email, term)
  }

  /** The role part of `filteredUsers`. */
  predicate RoleMatches(u: UserRow, roleFilter: string) {
    roleFilter == "all" || u.role == roleFilter
  }

  /** `filteredUsers`: the users matching both the search and the role filter, in list order. */
  function FilteredUsers(users: seq<UserRow>, term: string, roleFilter: string): (r: seq<UserRow>)
    ensures IsSubseq(r, users)
    ensures forall k :: 0 <= k < |r| ==> UserSearchMatches(r[k], term) && RoleMatches(r[k], roleFilter)
    ensures forall k ::
              0 <= k < |users| && UserSearchMatches(users[k], term) && RoleMatches(users[k], roleFilter)
              ==> users[k] in r
    ensures forall x :: x in users ==>
              multiset(r)[x] == if UserSearchMatches(x, term) && RoleMatches(x, roleFilter) then multiset(users)[x] else 0
  {
    var keep := (u: UserRow) => UserSearchMatches(u, term) && RoleMatches(u, roleFilter);
    FilterCounts(users, keep);
    Filter(users, keep)
  }

  /** The initial filters (empty search, role 'all') show every user. */
  lemma InitialFiltersShowEveryone(users: seq<UserRow>)
    ensures FilteredUsers(users, "", "all") == users
  {
  }

  /** Filtering the filtered list again changes nothing. */
  lemma FilteringTwiceIsFilteringOnce(users: seq<UserRow>, term: string, roleFilter: string)
    ensures FilteredUsers(FilteredUsers(users, term, roleFilter), term, roleFilter)
         == FilteredUsers(users, term, roleFilter)
  {
  }

  // ---------------------------------------------------------------------------
  // Saving
  // ---------------------------------------------------------------------------

  /** The `updates` object of an edit; `password` is absent unless the form has one. */
  datatype Updates = Updates(
    fullName: string,
    email: string,
    role: string,
    departmentId: Option<string>,
    isActive: bool,
    password: Option<string>)

  /** `department_id || null` */
  function DepartmentOrNull(d: string): (r: Option<string>)
    ensures r.None? <==> d == ""
    ensures r.Some? ==> r.value == d
  {
    if d == "" then None else Some(d)
  }

  /** The update payload: the form's fields, a null department for an empty one, and the password only when one was typed. */
  function BuildUpdates(f: FormData): (up: Updates)
    ensures up.fullName == f.fullName && up.email == f.email && up.role == f.role && up.isActive == f.isActive
    ensures up.departmentId.None? <==> f.departmentId == ""
    ensures up.departmentId.Some? ==> up.departmentId.value == f.departmentId
    ensures up.password.Some? <==> f.password != ""
    ensures up.password.Some? ==> up.password.value == f.password
  {
    Updates(f.fullName, f.email, f.role, DepartmentOrNull(f.departmentId), f.isActive,
      if f.password != "" then Some(f.password) else None)
  }

  /** `{ ...u, ...updates }`: every field the updates carry wins; an absent password keeps the row's. */
  function Merge(u: UserRow, up: Updates): (r: UserRow)
    ensures r.id == u.id
    ensures r.fullName == up.fullName && r.email == up.email && r.role == up.role
    ensures r.departmentId == up.departmentId && r.isActive == up.isActive
    ensures r.password == (if up.password.Some? then up.password else u.password)
  {
    UserRow(u.id, up.fullName, up.email, up.role, up.departmentId, up.isActive,
      if up.password.Some? then up.password else u.password)
  }

  /** The row the insert sends: unlike an update, it always carries the password, even an empty one. */
  function InsertPayload(f: FormData): (up: Updates)
    ensures up.password == Some(f.password)
    ensures up.departmentId.None? <==> f.departmentId == ""
    ensures up == BuildUpdates(f).(password := Some(f.password))
  {
    Updates(f.fullName, f.email, f.role, DepartmentOrNull(f.departmentId), f.isActive, Some(f.password))
  }

  /** The page state after `resetForm`. */
  function ResetForm(st: PageState): (r: PageState)
    ensures r.form.role == "student" && r.form.isActive
    ensures r.form.fullName == "" && r.form.email == "" && r.form.password == "" && r.form.departmentId == ""
    ensures r.editing.None?
    ensures r.users == st.users && r.showModal == st.showModal
  {
    st.(form := DefaultForm, editing := None)
  }

  /**
   * `handleSubmit` once the backend has answered: `ok` says whether the
   * update or insert succeeded and `inserted` is the row an insert returns.
   * On failure nothing changes (the modal stays open with the form as typed);
   * on success the edited id gets the updates merged in, or the new row is
   * appended, and the modal closes with a reset form.
   */
  function HandleSubmit(st: PageState, ok: bool, inserted: UserRow): (r: PageState)
    ensures !ok ==> r == st
    ensures ok ==> !r.showModal && r.editing.None? && r.form == DefaultForm
    ensures ok && st.editing.Some? ==>
      && |r.users| == |st.users|
      && forall k :: 0 <= k < |st.users| ==>
           r.users[k] == (if st.users[k].id == st.editing.value.id
                          then Merge(st.users[k], BuildUpdates(st.form)) else st.users[k])
    ensures ok && st.editing.None? ==> r.users == st.users + [inserted]
  {
    if !ok then st
    else
      var users :=
        match st.editing
        case Some(e) =>
          var up := BuildUpdates(st.form);
          seq(|st.users|, k requires 0 <= k < |st.users| =>
            if st.users[k].id == e.id then Merge(st.users[k], up) else st.users[k])
        case None => st.users + [inserted];
      ResetForm(PageState(users, st.form, st.editing, false))
  }

  /** `handleEdit(user)`: the form takes the user's fields with an empty password, and the modal opens. */
  function HandleEdit(st: PageState, user: UserRow): (r: PageState)
    ensures r.editing == Some(user) && r.showModal && r.users == st.users
    ensures r.form.password == ""
    ensures r.form.fullName == user.fullName && r.form.email == user.email
    ensures r.form.role == user.role && r.form.isActive == user.isActive
    ensures user.departmentId.Some? ==> r.form.departmentId == user.departmentId.value
    ensures user.departmentId.None? ==> r.form.departmentId == ""
  {
    var f := FormData(user.fullName, user.email, "", user.role, user.departmentId.GetOr(""), user.isActive);
    PageState(st.users, f, Some(user), true)
  }

  /**
   * Opening a user for editing and saving without touching the form gives
   * every row equal to that user back unchanged, as long as its department
   * is not the empty string (which the save turns into null).
   */
  lemma EditUntouchedKeepsRow(st: PageState, user: UserRow, inserted: UserRow, k: int)
    requires 0 <= k < |st.users| && st.users[k] == user
    requires user.departmentId != Some("")
    ensures HandleSubmit(HandleEdit(st, user), true, inserted).users[k] == user
  {
  }

  /** A successful save of a new user keeps every existing row and puts the returned row last. */
  lemma InsertAppendsAtEnd(st: PageState, inserted: UserRow)
    requires st.editing.None?
    ensures var r := HandleSubmit(st, true, inserted);
      |r.users| == |st.users| + 1 && r.users[..|st.users|] == st.users && r.users[|st.users|] == inserted
  {
  }

  // ---------------------------------------------------------------------------
  // Deleting
  // ---------------------------------------------------------------------------

  /** What `handleDelete` leaves behind: the list, and the id of the delete call it sent, if any. */
  datatype DeleteOutcome = DeleteOutcome(users: seq<UserRow>, deleteSent: Option<string>)

  /**
   * `handleDelete(id)`: a cancelled confirmation returns before any call; a
   * confirmed one sends the delete for that id. A cancelled or failed delete
   * leaves the list as it was; a successful one drops exactly the rows with
   * that id.
   */
  function HandleDelete(users: seq<UserRow>, id: string, confirmed: bool, deleteOk: bool): (r: DeleteOutcome)
    ensures r.deleteSent.Some? <==> confirmed
    ensures r.deleteSent.Some? ==> r.deleteSent.value == id
    ensures !confirmed || !deleteOk ==> r.users == users
    ensures confirmed && deleteOk ==>
      && IsSubseq(r.users, users)
      && (forall k :: 0 <= k < |r.users| ==> r.users[k].id != id)
      && (forall k :: 0 <= k < |users| && users[k].id != id ==> users[k] in r.users)
      && (forall x :: x in users ==> multiset(r.users)[x] == if x.id != id then multiset(users)[x] else 0)
  {
    if !confirmed then DeleteOutcome(users, None)
    else if !deleteOk then DeleteOutcome(users, Some(id))
    else
      var keep := (u: UserRow) => u.id != id;
      FilterCounts(users, keep);
      DeleteOutcome(Filter(users, keep), Some(id))
  }

  /** Deleting an id nobody has leaves the list as it was, whether or not the call is sent. */
  lemma DeleteUnknownIdIsNoOp(users: seq<UserRow>, id: string, confirmed: bool, deleteOk: bool)
    requires forall k :: 0 <= k < |users| ==> users[k].id != id
    ensures HandleDelete(users, id, confirmed, deleteOk).users == users
  {
  }

  /** Deleting twice is deleting once. */
  lemma DeleteIsIdempotent(users: seq<UserRow>, id: string)
    ensures var once := HandleDelete(users, id, true, true).users;
      HandleDelete(once, id, true, true).users == once
  {
  }
}
